=== FILE: README.md ===
# vertex-rag-flask core, in Dafny

This project models the logic that vertex-rag-flask owns itself. The rest of
that Flask application is glue around Google Cloud Storage, the Vertex AI RAG
SDK and the `unstructured` document parser. Four pieces are modelled:

- **`allowed_file`** (`Helpers`). A filename is accepted when it contains a
  dot and the text after the last dot, lower-cased, is an allowed extension.
  The allowed set is the configured set of twenty extensions, or `{"pdf"}`
  when none is configured. Python's `rsplit(".", 1)` and `lower()` live in
  `Text`.
- **`VertexService`**:
  - the `RagConfig` record with its defaults;
  - the blob names and `gs://` URIs that `_upload_to_gcs` produces;
  - `import_chunks`: skip blank chunks, upload the rest one at a time, raise
    `ValueError` when none remain, make one bulk import, and on import failure
    delete every uploaded blob (ignoring delete errors) before re-raising;
  - the `delete_files` loop.

  The bucket is a set of blob names. Every storage and RAG call is an entry
  in an effect log. An oracle decides the fresh identifiers and which calls
  raise.
- **`process_document`** (`DocumentService`). This is the filter-map over the
  elements the partitioner yields. The partitioner and the two cleaners are
  uninterpreted parameters.
- **The `upload` and `chat` views** (`Routes`). Each view is a pure function
  from an abstract request, the collaborators' behaviour and the host state
  to three things: a response, the new host state, and a trace of
  side-effecting steps. The host state is local files, the bucket and the
  RAG corpora.

Python's `str` operations are modelled on sequences of code points (`Text`):

- `isspace`, using Python's exact whitespace set;
- `strip`;
- `lower`, for the characters whose lower case is ASCII;
- `rsplit(sep, 1)`;
- `replace`, which replaces every occurrence, scanning left to right.

Exceptions are a `Result` datatype. A `finally` clause that raises replaces
the pending return or redirect, as it does in Python.

The `finally` clause of `upload` (lines 110-113 of `src/app/routes/main.py`,
commented as cleaning up the uploaded file) is there to remove the temporary
file whichever way the `try` body ends. On the path where the setup
statements raise before `filepath` is bound, it raises instead. This model
follows the code; see Findings.

## Model

| member | source | states |
|---|---|---|
| Helpers.AllowedFile | src/app/utils/helpers.py:4-7 | The model of `allowed_file`. It has no contract of its own: AllowedFileIffLastExtension and the lemmas below state how it judges a name. |
| Helpers.AllowedFileIffLastExtension | src/app/utils/helpers.py:4-7 | A name is accepted exactly when it has a last dot and the lower-cased text after that dot is in the allowed set. Both directions hold, against a reading with no `rsplit`. |
| Helpers.NoDotRejected | src/app/utils/helpers.py:6 | A name without any `.` is rejected under every extension set. |
| Helpers.JudgedByLastExtension | src/app/utils/helpers.py:7 | For any stem, with dots or without, `stem.ext` is accepted iff `ext` (dot-free) is accepted on its own. Only the last extension is judged. |
| Helpers.RSplitAtLastDot | src/app/utils/helpers.py:7 | `rsplit(".", 1)` cuts at the last dot. The second piece is exactly the text after it. |
| Helpers.LastDotUnique | src/app/utils/helpers.py:7 | A name has at most one last dot. |
| Helpers.TrailingDotJudgedAsEmpty | src/app/utils/helpers.py:7 | A name ending in `.` has the empty extension. It is accepted iff `""` is allowed. |
| Helpers.TrailingDotRejected | src/config/config.py:12-21 | A name ending in `.` is rejected under both the configured set and the `{"pdf"}` fallback. |
| Helpers.LowerIdempotent | src/app/utils/helpers.py:7 | Lower-casing twice equals lower-casing once. |
| Helpers.AllowedAsLowered | src/app/utils/helpers.py:7 | A name is judged exactly as its lower-cased form is judged. |
| Helpers.CaseInsensitive | src/app/utils/helpers.py:7 | Two names that lower-case alike are accepted alike, e.g. `Report.PDF` iff `report.pdf`. |
| Helpers.FallbackAcceptsOnlyPdf | src/app/utils/helpers.py:7 | Without a configured set, a name is accepted iff its last extension, lower-cased, is `pdf`. |
| Helpers.ConfiguredAcceptsListed | src/config/config.py:12-21 | Under the configured set, `stem.ext` is accepted iff `ext`, lower-cased, is one of the twenty listed values. |
| Helpers.AcceptsUpperCasePdf | src/app/utils/helpers.py:6-7 | `Report.PDF` is accepted. |
| Helpers.AcceptsSeveralDots | src/app/utils/helpers.py:6-7 | `a.b.txt` is accepted, judged by `txt`. |
| Helpers.AcceptsEmptyStem | src/app/utils/helpers.py:6-7 | `.pdf` is accepted. |
| Helpers.RejectsCompoundExtension | src/app/utils/helpers.py:6-7 | `x.tar.gz` is rejected, judged by `gz`. |
| Helpers.RejectsDisguisedExtension | src/app/utils/helpers.py:6-7 | `report.pdf.exe` is rejected, judged by `exe`. |
| Helpers.AcceptsKelvinSign | src/app/utils/helpers.py:7 | `a.mKv`, whose `K` is U+212A KELVIN SIGN, is accepted when `mkv` is allowed, because `lower()` maps that sign to `k`. |
| Helpers.ExeNotConfigured | src/config/config.py:12-21 | `exe` is not a configured extension. |
| Text.IsSpace | src/app/services/document_service.py:21 | Python's `str.isspace` set: `\t` to `\r`, U+001C to space, U+0085, U+00A0, U+1680, U+2000 to U+200A, U+2028, U+2029, U+202F, U+205F and U+3000. It has no contract of its own; Strip and the lemmas about it use it. |
| Text.Lower | src/app/utils/helpers.py:7 | `lower()`, character by character, for the characters whose lower case is ASCII. It has no contract of its own; LowerIdempotent, LowerSuffix and LowerKeepsNonLetter state its properties. |
| Text.LastIndexOf | src/app/utils/helpers.py:7 | Returns None exactly when the character is absent. Otherwise it returns a position holding the character, with no later occurrence. |
| Text.RSplitOnce | src/app/utils/helpers.py:7 | Returns one piece, the input itself, exactly when the separator is absent. Otherwise it returns two pieces that rebuild the input around the separator, and the second piece holds no separator. |
| Text.TrimLeft | src/app/services/document_service.py:33 | The result is a suffix of the input. Only whitespace was dropped, and the result does not start with whitespace. |
| Text.TrimRight | src/app/services/document_service.py:33 | The result is a prefix of the input. Only whitespace was dropped, and the result does not end with whitespace. |
| Text.Strip | src/app/services/document_service.py:32-33 | `strip()` is empty exactly when the input is blank. Otherwise the result neither starts nor ends with whitespace. |
| Text.StripShape | src/app/services/document_service.py:32-33 | Trimming both ends is blank-exact and leaves an infix with only whitespace around it. |
| Text.TrimBoth | src/app/services/document_service.py:32-33 | The same fact, derived from the two one-sided trims' guarantees. |
| Text.StripRemovesOnlyEndSpace | src/app/services/document_service.py:33 | `strip()` returns an infix of its input, and everything outside that infix is whitespace. |
| Text.StrippedIffFixed | src/app/services/document_service.py:33 | A string equals its own `strip()` iff it has no whitespace at either end. |
| Text.StripIdempotent | src/app/services/document_service.py:33 | `strip()` applied twice equals `strip()` applied once. |
| Text.LowerKeepsNonLetter | src/app/utils/helpers.py:7 | Lower-casing neither creates nor removes a character that is neither an ASCII letter nor the Kelvin sign, such as `.`. |
| Text.LowerSuffix | src/app/utils/helpers.py:7 | Lower-casing commutes with taking a suffix. |
| Text.ReplaceAll | src/app/services/vertex_service.py:84-85 | With an empty replacement, the result is no longer than the input. |
| Text.ReplaceAllAbsent | src/app/services/vertex_service.py:84-85 | `replace` leaves unchanged a string that lacks one of the pattern's characters. |
| Text.ReplaceRemovesPrefix | src/app/services/vertex_service.py:84-85 | Replacing a prefix by `""` recovers the rest, when the rest lacks one of the prefix's characters. |
| VertexService.NewRagConfig | src/app/services/vertex_service.py:14-22 | The given project and bucket are kept. The omitted fields take their declared defaults: `us-central1`, `default_corpus`, the gecko multilingual model, 512 and 100. |
| VertexService.BlobName | src/app/services/vertex_service.py:35 | The blob name `rag-documents/<id>.txt`. It has no contract of its own; UriForm, BlobNameHasNoColon and UriRoundTrip state its properties. |
| VertexService.GcsUri | src/app/services/vertex_service.py:38 | The URI is the `gs://<bucket>/` prefix followed by exactly the blob name, so the blob name can be cut back out of it. |
| VertexService.BlobNameOfUri | src/app/services/vertex_service.py:84-85 | The blob name the compensating loop derives from a URI. It has no contract of its own; UriRoundTrip states that it inverts GcsUri. |
| VertexService.UriForm | src/app/services/vertex_service.py:35-38 | Every URI has the form `gs://<bucket>/rag-documents/<id>.txt`. |
| VertexService.BlobNameHasNoColon | src/app/services/vertex_service.py:35 | A blob name built from uuid text contains no `:`. |
| VertexService.UriRoundTrip | src/app/services/vertex_service.py:84-85 | Removing `gs://<bucket>/` from an uploaded blob's URI recovers exactly that blob's name. |
| VertexService.NonBlank | src/app/services/vertex_service.py:64-65 | Keeps only non-blank chunks, at most as many as were given. The result is empty iff every chunk is blank. |
| VertexService.FirstFault | src/app/services/vertex_service.py:64-67 | Counts the calls that pass before the first one that raises. None of them raises, and the next one does. |
| VertexService.FirstFaultIsFirst | src/app/services/vertex_service.py:64-67 | The first raising call is the one FirstFault names. |
| VertexService.NoFaultMeansAll | src/app/services/vertex_service.py:64-67 | When no call raises, FirstFault counts all of them. |
| VertexService.BlobsOfStep | src/app/services/vertex_service.py:64-67 | The blobs of n+1 uploads are the first blob plus the blobs of the next n. |
| VertexService.UploadLogStep | src/app/services/vertex_service.py:64-67 | The upload log of a chunk list is the first chunk's upload followed by the log of the rest. |
| VertexService.UrisOfStep | src/app/services/vertex_service.py:64-67 | The URIs of n+1 uploads are the first URI followed by the next n URIs. |
| VertexService.UploadChunksEffect | src/app/services/vertex_service.py:63-67 | The upload loop uploads exactly the non-blank chunks, each once and in order, until the first upload that raises, whose attempt is logged as failed. Earlier uploads stay and the exception propagates. When none raises, the URIs are collected in chunk order. |
| VertexService.UploadChunksMatch | src/app/services/vertex_service.py:63-67 | The same fact as UploadChunksEffect, stated through the `UploadsMatch` predicate that the induction carries. |
| VertexService.UploadStep | src/app/services/vertex_service.py:64-67 | The inductive step of the upload loop, for a first chunk whose upload passes. |
| VertexService.NonBlankCons | src/app/services/vertex_service.py:64-65 | A non-blank first chunk is the first chunk uploaded. |
| VertexService.UploadLogPrefixStep | src/app/services/vertex_service.py:64-67 | The log of the first 1+m uploads is the first upload's entry, then the log of the next m. |
| VertexService.FailedUploadStep | src/app/services/vertex_service.py:64-67 | The log entry of the raising upload is the same whether counted from the first chunk or from the second. |
| VertexService.UploadStepLog | src/app/services/vertex_service.py:64-67 | The log part of the inductive step: the first upload's entry followed by the rest of the log is the log of the whole list. |
| VertexService.UploadChunks | src/app/services/vertex_service.py:63-67 | The upload loop only adds blobs to the bucket. When no upload raises, it returns one URI per non-blank chunk. |
| VertexService.UploadsAllPass | src/app/services/vertex_service.py:63-67 | When no upload raises, every non-blank chunk is uploaded and logged, in order, and the URIs are collected in chunk order. |
| VertexService.Compensate | src/app/services/vertex_service.py:80-88 | The compensating loop only removes blobs, and it adds exactly one log entry per URI. |
| VertexService.CompensationOfUploads | src/app/services/vertex_service.py:80-88 | Compensating for n uploads attempts the delete of exactly those uploads' blobs, in upload order, and removes those whose delete succeeded. |
| VertexService.EffectiveChunkSize | src/app/services/vertex_service.py:59-60 | A non-zero requested size is used as given; a missing or zero one falls back to the configured size. So the size used is 0 only when the configured size is 0. |
| VertexService.ImportChunks | src/app/services/vertex_service.py:52-89 | A call that returns had at least one non-blank chunk, and it leaves in the bucket every blob that was there before. |
| VertexService.CompensateEffect | src/app/services/vertex_service.py:82-88 | One delete is attempted per URI, in order, and a failing delete does not stop the rest. Exactly the blobs whose delete succeeded are removed. |
| VertexService.ImportRejectsBlankChunks | src/app/services/vertex_service.py:69-70 | When every chunk is blank, the call raises `ValueError("No valid chunks to import")`. Nothing is uploaded, no import is requested, and the store is unchanged. |
| VertexService.UploadFailureNotCompensated | src/app/services/vertex_service.py:63-72 | When the m-th upload raises, the import is never requested and nothing is deleted. The m earlier blobs stay, the log ends with the failed attempt on the m-th chunk, and that upload's exception surfaces. |
| VertexService.ImportSuccessKeepsBlobs | src/app/services/vertex_service.py:59-79 | On success, every uploaded blob stays. The log holds the uploads in order, then one import of the URIs in chunk order with the effective chunk size and the configured overlap, and no deletes. |
| VertexService.ImportOutcome | src/app/services/vertex_service.py:63-89 | When some chunk is non-blank and no upload raises, `import_chunks` returns exactly when the bulk import does. Otherwise it raises that import's own exception. |
| VertexService.ImportFailureCompensates | src/app/services/vertex_service.py:72-89 | When the import raises, a delete is attempted for every uploaded blob, in order, and errors in the deletes are ignored. The exception surfaced is the import's own. Exactly the blobs whose delete succeeded are gone. |
| VertexService.FailedImportRestoresBucket | src/app/services/vertex_service.py:80-89 | When all deletes succeed and the fresh names were new, a failed import leaves the bucket as it found it. |
| VertexService.DefaultChunking | src/app/services/vertex_service.py:59-60 | A missing or zero chunk size under a defaulted configuration imports with size 512 and overlap 100. |
| VertexService.DeleteFilesEffect | src/app/services/vertex_service.py:131-134 | One delete is issued per id, in list order, up to and including the first that raises. That call's exception is the one surfaced. |
| VertexService.DeleteStep | src/app/services/vertex_service.py:133-134 | The inductive step of the delete loop: a first delete that passes is followed by the rest, in order. |
| VertexService.DeleteFiles | src/app/services/vertex_service.py:131-134 | The delete calls issued are a prefix of the id list, in list order. When none raises, every id gets a call. |
| DocumentService.ProcessDocument | src/app/services/document_service.py:19-35 | Returns at most one string per element. Every string returned is non-blank and has no whitespace at either end. |
| DocumentService.Contribution | src/app/services/document_service.py:21-33 | One element contributes at most one string, and only an element with text contributes. |
| DocumentService.ContributionIsStripped | src/app/services/document_service.py:21-33 | One element contributes at most one string, which is non-blank and stripped. |
| DocumentService.ProcessDocumentOutputIsStripped | src/app/services/document_service.py:33 | Every string returned equals its own `strip()`. |
| DocumentService.ProcessDocumentIsFilterMap | src/app/services/document_service.py:20-33 | The result equals a pipeline: keep the elements with non-blank text, apply `replace_unicode_quotes(clean(...))`, drop blanks, then strip. |
| DocumentService.MapAppend | src/app/services/document_service.py:20-33 | Map distributes over concatenation. |
| DocumentService.FilterAppend | src/app/services/document_service.py:20-33 | Filter distributes over concatenation. |
| DocumentService.ProcessDocumentAppend | src/app/services/document_service.py:20-35 | The result for a concatenation is the concatenation of the results, so output order follows element order. |
| DocumentService.ProcessDocumentSingle | src/app/services/document_service.py:20-33 | A single element yields exactly its own contribution. |
| DocumentService.TextlessElementIgnored | src/app/services/document_service.py:21 | An element without text, or with blank text, contributes nothing wherever it stands. |
| Routes.TryBody | src/app/routes/main.py:68-106 | `filepath` is unbound exactly when the setup statements raise, and then nothing has happened. Otherwise the save was attempted on the temporary path first, each import follows its corpus's creation, and at most one corpus is added. No local file other than the temporary path changes. |
| Routes.AfterSave | src/app/routes/main.py:81-106 | After the save, the local files are unchanged and the bound-`filepath` facts hold. |
| Routes.Imported | src/app/routes/main.py:95-106 | Once `import_chunks` has run, the new corpus is recorded. The view redirects to chat when the import returned, and otherwise carries the import's exception. |
| Routes.AcceptedRunsTryBody | src/app/routes/main.py:67-113 | A POST with a file, a bucket and an allowed, non-empty filename runs the `try` body and then its `except`/`finally` handling. |
| Routes.ReachesEmptyExtraction | src/app/routes/main.py:79-87 | An extraction yielding no chunks stops after the extraction, with the "no text" redirect. |
| Routes.ReachesImport | src/app/routes/main.py:79-98 | When save, extraction, service construction and corpus creation all pass, the body reaches the import with the upload's configuration. |
| Routes.ImportReturnsAsStorageDecides | src/app/routes/main.py:83-98 | The chunks `upload` passes on are non-blank. So when no upload raises, the import's outcome is the bulk import's. |
| Routes.UploadFaultFailsImport | src/app/routes/main.py:83-98 | The chunks `upload` passes on are non-blank, so its first chunk is the first upload. When that upload raises, `import_chunks` raises the same exception; ImportFailureKeepsCorpus then gives the view's outcome. |
| Routes.Finish | src/app/routes/main.py:107-113 | The `except` clause turns an exception into an `Error: ...` flash. The `finally` clause removes exactly the temporary file, if it exists, or raises `UnboundLocalError` when `filepath` was never bound. No other local file changes, and bucket and corpora are untouched. |
| Routes.Upload | src/app/routes/main.py:47-113 | A request that takes no step leaves the local files, the bucket and the corpora as they were. |
| Routes.Chat | src/app/routes/main.py:128-133 | A missing or empty `corpus_name` redirects to the index. Any other value renders the chat page for that corpus. |
| Routes.NoFilePartRejectedFirst | src/app/routes/main.py:51-53 | A POST without a file part redirects with "No file part", whatever else it holds. Nothing changes. |
| Routes.BucketCheckedBeforeFilename | src/app/routes/main.py:56-60 | A missing or empty bucket redirects before the file is looked at, even when the filename is empty. |
| Routes.EmptyFilenameRejected | src/app/routes/main.py:62-65 | With a bucket given, an empty filename redirects with "No selected file". |
| Routes.DisallowedFileRendersForm | src/app/routes/main.py:67 | A disallowed extension saves nothing, changes nothing and renders the upload form. |
| Routes.StepsOnlyForValidRequests | src/app/routes/main.py:50-67 | A step is taken only for a POST with a file part, a bucket, and an allowed filename. |
| Routes.SavedFileAlwaysRemoved | src/app/routes/main.py:107-113 | Once the save was attempted, the temporary file is gone when the view ends, on every path. |
| Routes.SavedFileOnlyChange | src/app/routes/main.py:110-113 | Once the save was attempted, the local files at the end are exactly those before the request, less the temporary path: the cleanup removes that file and nothing else. |
| Routes.SavedOn | src/app/routes/main.py:67-113 | A trace with a save on a path comes from a `try` body that bound `filepath` to that path and changed no other local file. |
| Routes.CorpusCreatedBeforeImport | src/app/routes/main.py:97-98 | In every trace, an import immediately follows the creation of the same corpus. |
| Routes.EmptyExtractionCreatesNoCorpus | src/app/routes/main.py:85-87 | An empty extraction flashes "No text content found in document". No corpus is created, the bucket is untouched, and the temporary file is removed. |
| Routes.ImportFailureKeepsCorpus | src/app/routes/main.py:97-109 | Any exception from `import_chunks`, whether from an upload or from the bulk import, is flashed as `Error: ...`. The corpus created just before it stays, and the temporary file is removed. |
| Routes.SuccessRedirectsToNewCorpus | src/app/routes/main.py:97-106 | On success, the view redirects to chat with the new corpus and the resolved project id, and the chat page then renders that corpus. |
| Routes.SetupFaultMaskedAsWritten | src/app/routes/main.py:110-113 | As written, a raise before `filepath` is bound ends in a server error (`UnboundLocalError`) instead of the redirect. |
| Routes.SetupFaultReportedGuarded | src/app/routes/main.py:107-109 | With a guarded cleanup, the same failure is flashed as `Error: ...` and nothing changes. |
| Routes.ServerErrorOnlyFromUnboundFilepath | src/app/routes/main.py:67-113 | With the guard, no exception escapes the view. As written, one escapes exactly when the setup statements raise for an accepted file. |

## Left out

- `VertexService.query`, `create_corpus`, `list_files` and `delete_corpus`: pass-throughs to the RAG SDK. `create_corpus` appears in `upload` only through its outcome, which is a parameter.
- `rag.import_files`, `rag.delete_file`, blob upload and delete: foreign network calls, modelled as oracle-decided success or failure.
- `uuid.uuid4()`: an oracle `nextId`. The URI round trip assumes its text uses only hexadecimal digits and `-`.
- `partition`, `clean`, `replace_unicode_quotes` and `get_document_metadata`: foreign parsing. The cleaners are uninterpreted function parameters, and the partitioner's output is a parameter.
- `src/config/utils/gcp.py` (credentials, project id, bucket listing and creation): I/O. The project id is a parameter. An exception from `get_project_id()` at line 55 of `main.py` is not modelled.
- `src/app/routes/api.py`: request parsing and pass-throughs.
- Flask mechanics: `flash` categories, `redirect`, `render_template`, `url_for`, `MAX_CONTENT_LENGTH`. The success flash text and the GET page's template data are not part of the response datatype.
- `secure_filename`: an uninterpreted function parameter.
- The process-wide `LAST_BUCKET_NAME` value: cross-request state. Its write at line 70 is folded into the setup statements that may raise.
- Logging, `print` and the app factory.
- Text.LowerChar: maps the ASCII capitals and U+212A KELVIN SIGN, the characters whose Python lower case is ASCII, and leaves every other character as it is. Python also lower-cases non-ASCII letters to non-ASCII ones (U+0130 even to two code points). So the model judges a name as Python does whenever every allowed extension is ASCII, as all twenty configured ones are. Under a set holding a non-ASCII extension it can differ: with `{"ä"}` allowed, Python accepts `x.Ä` and the model rejects it.
- Routes.Upload: always uses the twenty configured extensions, the set the application config supplies. Helpers covers the `{"pdf"}` fallback separately.
- Routes.Finish: `filepath.exists()` and `filepath.unlink()` are modelled as never raising. If `unlink` raised, the file would stay and the exception would end the view as a server error; SavedFileAlwaysRemoved and SavedFileOnlyChange rely on this.
- Routes.Finish: flashed messages are modelled only as the text a `RedirectBack` carries. A message the `except` clause queues (line 108) before a raising `finally` (line 112) is not represented, so `ServerError` carries no queued flash.
- Routes.TryBody: when `file.save` raises, whether a partial file is left behind is a parameter. Creating the upload folder (`mkdir` at line 74 of `main.py`) is not modelled: `Host.files` holds files, not directories, so the folder a first accepted upload creates, and which nothing removes, is absent. The statements about local files here speak of files only.
- VertexService.ImportRejectsBlankChunks: states only the all-blank to `ValueError` direction. An import failure can carry the same message, so the converse does not hold in the model.

## Findings

| source | as written | input that shows it | evidently intended | confidence | as-written member | corrected member |
|---|---|---|---|---|---|---|
| src/app/routes/main.py:110-113 | The `finally` clause reads `filepath`. That variable is bound only at line 76, after the config write, the `UPLOAD_FOLDER` lookup and the `mkdir` at lines 70-74. | An accepted upload where `upload_dir.mkdir` raises, e.g. because the folder path is an existing regular file. The `finally` raises `UnboundLocalError`, which replaces the `except` clause's redirect, so the response is a server error instead of the redirect. The `Error: ...` message flashed at line 108 stays queued for a later page. | The failure is answered like every other exception in the `try` body, with the redirect after the `Error: <message>` flash, and no server error. | high; not executed | Routes.SetupFaultMaskedAsWritten | Routes.SetupFaultReportedGuarded |

`Routes.Upload` takes a `Cleanup` argument. `AsWritten` is the code as it
stands. `Guarded` skips the cleanup when `filepath` was never bound.
`Routes.ServerErrorOnlyFromUnboundFilepath` proves that the guarded version
never lets an exception escape. Every other `Routes` lemma holds for both
cleanups.

=== FILE: base.dfy ===
/** Failure-carrying datatypes shared by every module of the model. */
module Base {

  datatype Option<+T> = None | Some(value: T)

  /** The Python exceptions the modelled code raises, catches or lets through.
      Exceptions coming from collaborators the model cannot see (cloud SDK,
      filesystem, document parser) are `External`, carrying their own message. */
  datatype Exception =
    | ValueError(msg: string)
    | UnboundLocalError(name: string)
    | External(msg: string)

  /** A Python call that either returns a value or raises. */
  datatype Result<+T> = Ok(value: T) | Raised(error: Exception)

  /** `str(e)`: the text a handler shows for an exception. Only the messages
      the modelled code constructs are spelled out; a foreign exception carries its own. */
  function Message(e: Exception): string
  {
    match e
    case ValueError(m) => m
    case UnboundLocalError(n) => "cannot access local variable '" + n + "' where it is not associated with a value"
    case External(m) => m
  }
}

=== FILE: document_service.dfy ===
/** `DocumentService.process_document`: the filter-map the repository applies
    to the elements the `unstructured` partitioner yields. Partitioning and
    the two cleaners are foreign; the cleaners are parameters. */
module DocumentService {
  import opened Base
  import opened Text

  /** One element yielded by `partition`; `None` is an element without a
      `text` attribute. */
  datatype Element = Element(text: Option<string>)

  /** `hasattr(element, 'text') and element.text.strip()`: the element is
      worth cleaning. */
  predicate HasText(e: Element)
  {
    e.text.Some? && !IsBlank(e.text.value)
  }

  /** The element's text, or the empty string when it has none. */
  function TextOf(e: Element): string
  {
    match e.text
    case Some(t) => t
    case None => ""
  }

  /** What one element adds to the result: its cleaned, quote-normalised
      and stripped text, when that is non-blank. `clean` stands for
      `clean(..., bullets=True, extra_whitespace=True, dashes=True,
      trailing_punctuation=True)` and `quotes` for `replace_unicode_quotes`. */
  function Contribution(e: Element, clean: string -> string, quotes: string -> string): (r: seq<string>)
    ensures |r| <= 1
    ensures r != [] ==> HasText(e)
  {
    if HasText(e) then
      var t := quotes(clean(e.text.value));
      if IsBlank(t) then [] else [Strip(t)]
    else []
  }

  /** `process_document` after `partition`: the contributions of the
      elements, in element order. Every string returned is non-blank and
      equal to its own `strip()`, and there are at most as many as elements. */
  function ProcessDocument(elements: seq<Element>, clean: string -> string, quotes: string -> string): (r: seq<string>)
    ensures |r| <= |elements|
    ensures forall s :: s in r ==> !IsBlank(s) && IsStripped(s)
  {
    if |elements| == 0 then []
    else
      var c := Contribution(elements[0], clean, quotes);
      var rest := ProcessDocument(elements[1..], clean, quotes);
      ContributionIsStripped(elements[0], clean, quotes);
      c + rest
  }

  /** An element contributes at most one string, non-blank and stripped. */
  lemma ContributionIsStripped(e: Element, clean: string -> string, quotes: string -> string)
    ensures var c := Contribution(e, clean, quotes);
      |c| <= 1 && (|c| == 1 ==> !IsBlank(c[0]) && IsStripped(c[0]))
  {
  }

  /** Every string returned equals its own `strip()`. */
  lemma ProcessDocumentOutputIsStripped(elements: seq<Element>, clean: string -> string, quotes: string -> string)
    ensures forall s :: s in ProcessDocument(elements, clean, quotes) ==> Strip(s) == s
  {
    forall s | s in ProcessDocument(elements, clean, quotes) ensures Strip(s) == s {
      StrippedIffFixed(s);
    }
  }

  // ---------------------------------------------------------------------
  // An independent reading: filter, map, filter, map

  function Filter<T>(p: T -> bool, s: seq<T>): seq<T>
  {
    if |s| == 0 then [] else (if p(s[0]) then [s[0]] else []) + Filter(p, s[1..])
  }

  function Map<T, U>(f: T -> U, s: seq<T>): seq<U>
  {
    if |s| == 0 then [] else [f(s[0])] + Map(f, s[1..])
  }

  /** `process_document` is the ordered pipeline: keep the elements with
      non-blank text, clean them, drop what cleaning left blank, strip the
      rest. */
  lemma {:induction false} ProcessDocumentIsFilterMap(elements: seq<Element>, clean: string -> string, quotes: string -> string)
    ensures ProcessDocument(elements, clean, quotes) ==
      Map(Strip,
        Filter((t: string) => !IsBlank(t),
          Map((t: string) => quotes(clean(t)),
            Map(TextOf, Filter(HasText, elements)))))
  {
    if |elements| > 0 {
      var e := elements[0];
      var tail := elements[1..];
      ProcessDocumentIsFilterMap(tail, clean, quotes);
      var cleaned := (t: string) => quotes(clean(t));
      var nonBlank := (t: string) => !IsBlank(t);
      var head := if HasText(e) then [e] else [];
      assert Filter(HasText, elements) == head + Filter(HasText, tail);
      MapAppend(TextOf, head, Filter(HasText, tail));
      MapAppend(cleaned, Map(TextOf, head), Map(TextOf, Filter(HasText, tail)));
      FilterAppend(nonBlank, Map(cleaned, Map(TextOf, head)), Map(cleaned, Map(TextOf, Filter(HasText, tail))));
      MapAppend(Strip, Filter(nonBlank, Map(cleaned, Map(TextOf, head))),
                Filter(nonBlank, Map(cleaned, Map(TextOf, Filter(HasText, tail)))));
    }
  }

  lemma {:induction false} MapAppend<T, U>(f: T -> U, a: seq<T>, b: seq<T>)
    ensures Map(f, a + b) == Map(f, a) + Map(f, b)
    decreases |a|
  {
    if |a| > 0 {
      assert (a + b)[1..] == a[1..] + b;
      MapAppend(f, a[1..], b);
    } else {
      assert a + b == b;
    }
  }

  lemma {:induction false} FilterAppend<T>(p: T -> bool, a: seq<T>, b: seq<T>)
    ensures Filter(p, a + b) == Filter(p, a) + Filter(p, b)
    decreases |a|
  {
    if |a| > 0 {
      assert (a + b)[1..] == a[1..] + b;
      FilterAppend(p, a[1..], b);
    } else {
      assert a + b == b;
    }
  }

  /** The result over a concatenation is the concatenation of the results:
      output order follows element order. */
  lemma {:induction false} ProcessDocumentAppend(a: seq<Element>, b: seq<Element>, clean: string -> string, quotes: string -> string)
    ensures ProcessDocument(a + b, clean, quotes) == ProcessDocument(a, clean, quotes) + ProcessDocument(b, clean, quotes)
    decreases |a|
  {
    if |a| > 0 {
      assert (a + b)[0] == a[0];
      assert (a + b)[1..] == a[1..] + b;
      ProcessDocumentAppend(a[1..], b, clean, quotes);
    } else {
      assert a + b == b;
    }
  }

  /** A single element yields exactly its contribution. */
  lemma ProcessDocumentSingle(e: Element, clean: string -> string, quotes: string -> string)
    ensures ProcessDocument([e], clean, quotes) == Contribution(e, clean, quotes)
  {
    assert [e][1..] == [];
  }

  /** An element without text, or whose text is blank before cleaning,
      contributes nothing wherever it stands. */
  lemma TextlessElementIgnored(a: seq<Element>, e: Element, b: seq<Element>,
                               clean: string -> string, quotes: string -> string)
    requires !HasText(e)
    ensures ProcessDocument(a + [e] + b, clean, quotes) == ProcessDocument(a + b, clean, quotes)
  {
    ProcessDocumentAppend(a + [e], b, clean, quotes);
    ProcessDocumentAppend(a, [e], clean, quotes);
    ProcessDocumentSingle(e, clean, quotes);
    ProcessDocumentAppend(a, b, clean, quotes);
  }
}

=== FILE: helpers.dfy ===
/** The upload-extension validator `allowed_file` and the extension set the
    application is configured with. */
module Helpers {
  import opened Base
  import opened Text

  /** `Config.ALLOWED_EXTENSIONS`: the twenty configured extensions. */
  const ConfiguredExtensions: set<string> := {
    "pdf", "docx", "doc", "pptx", "ppt", "xlsx", "xls",
    "txt", "md", "rst", "json", "yaml", "yml",
    "eml", "msg",
    "png", "jpg", "jpeg", "tiff", "bmp"
  }

  /** The fallback used when the application config has no extension set. */
  const DefaultExtensions: set<string> := {"pdf"}

  /** `current_app.config.get("ALLOWED_EXTENSIONS", {"pdf"})`; `None` stands
      for a config without the key. */
  function AllowedExtensions(configured: Option<set<string>>): set<string>
  {
    match configured
    case None => DefaultExtensions
    case Some(exts) => exts
  }

  /** `allowed_file(filename)`: the name holds a `.`, and the text after the
      last `.`, lower-cased, is an allowed extension. */
  predicate AllowedFile(filename: string, configured: Option<set<string>>)
  {
    '.' in filename && Lower(RSplitOnce(filename, '.')[1]) in AllowedExtensions(configured)
  }

  /** `i` is the position of the last `.` in `filename`. */
  predicate LastDotAt(filename: string, i: int)
  {
    0 <= i < |filename| && filename[i] == '.' && forall j :: i < j < |filename| ==> filename[j] != '.'
  }

  /** A name has at most one last dot. */
  lemma LastDotUnique(filename: string, i: int, j: int)
    requires LastDotAt(filename, i) && LastDotAt(filename, j)
    ensures i == j
  {
  }

  /** Where `rsplit(".", 1)` cuts: the second piece is what follows the last dot. */
  lemma RSplitAtLastDot(filename: string)
    requires '.' in filename
    ensures var parts := RSplitOnce(filename, '.');
      LastDotAt(filename, |parts[0]|) && parts[1] == filename[|parts[0]| + 1..]
  {
    var parts := RSplitOnce(filename, '.');
    var i := |parts[0]|;
    assert filename == parts[0] + ['.'] + parts[1];
    assert filename[i] == '.';
    assert filename[i + 1..] == parts[1];
    forall j | i < j < |filename| ensures filename[j] != '.' {
      assert filename[j] == parts[1][j - i - 1];
    }
  }

  /** Reference reading of `allowed_file`, without `rsplit`: accepted exactly
      when some dot is the last one and the lower-cased text after it is
      allowed. Both directions. */
  lemma AllowedFileIffLastExtension(filename: string, configured: Option<set<string>>)
    ensures AllowedFile(filename, configured) <==>
      exists i :: LastDotAt(filename, i) && Lower(filename[i + 1..]) in AllowedExtensions(configured)
  {
    if '.' in filename {
      RSplitAtLastDot(filename);
      var i := |RSplitOnce(filename, '.')[0]|;
      forall k | LastDotAt(filename, k) ensures k == i {
        LastDotUnique(filename, i, k);
      }
    } else {
      forall i | 0 <= i < |filename| ensures filename[i] != '.' {
        assert filename[i] in filename;
      }
    }
  }

  /** Only the text after the last dot is judged: for any stem, with dots or
      without, `stem.ext` is accepted iff `ext` is (`a.b.txt` by `txt`,
      `x.tar.gz` by `gz`). */
  lemma JudgedByLastExtension(stem: string, ext: string, configured: Option<set<string>>)
    requires '.' !in ext
    ensures AllowedFile(stem + "." + ext, configured) <==> Lower(ext) in AllowedExtensions(configured)
  {
    var f := stem + "." + ext;
    var i := |stem|;
    assert f[i] == '.';
    assert f[i + 1..] == ext;
    forall j | i < j < |f| ensures f[j] != '.' {
      assert f[j] == ext[j - i - 1];
    }
    assert LastDotAt(f, i);
    AllowedFileIffLastExtension(f, configured);
    forall k | LastDotAt(f, k) ensures k == i {
      LastDotUnique(f, i, k);
    }
  }

  /** A name without any dot is rejected, whatever the extension set. */
  lemma NoDotRejected(filename: string, configured: Option<set<string>>)
    requires '.' !in filename
    ensures !AllowedFile(filename, configured)
  {
  }

  /** A name ending in a dot has the empty extension: it is accepted iff the
      empty string is an allowed extension. */
  lemma TrailingDotJudgedAsEmpty(filename: string, configured: Option<set<string>>)
    requires |filename| > 0 && filename[|filename| - 1] == '.'
    ensures AllowedFile(filename, configured) <==> "" in AllowedExtensions(configured)
  {
    var stem := filename[..|filename| - 1];
    assert filename == stem + "." + "";
    JudgedByLastExtension(stem, "", configured);
    assert Lower("") == "";
  }

  /** Neither the configured nor the fallback set admits the empty
      extension, so a trailing dot is always rejected in practice. */
  lemma TrailingDotRejected(filename: string, configured: Option<set<string>>)
    requires |filename| > 0 && filename[|filename| - 1] == '.'
    requires configured == None || configured == Some(ConfiguredExtensions)
    ensures !AllowedFile(filename, configured)
  {
    TrailingDotJudgedAsEmpty(filename, configured);
  }

  /** Lower-casing is idempotent. */
  lemma LowerIdempotent(s: string)
    ensures Lower(Lower(s)) == Lower(s)
  {
  }

  /** The check is case-insensitive: two names that lower-case alike are
      judged alike (`Report.PDF` iff `report.pdf`). */
  lemma CaseInsensitive(f: string, g: string, configured: Option<set<string>>)
    requires Lower(f) == Lower(g)
    ensures AllowedFile(f, configured) <==> AllowedFile(g, configured)
  {
    AllowedAsLowered(f, configured);
    AllowedAsLowered(g, configured);
  }

  /** A name is judged exactly as its lower-cased form is. */
  lemma AllowedAsLowered(f: string, configured: Option<set<string>>)
    ensures AllowedFile(f, configured) <==> AllowedFile(Lower(f), configured)
  {
    var g := Lower(f);
    LowerKeepsNonLetter(f, '.');
    if '.' in f {
      RSplitAtLastDot(f);
      var i := |RSplitOnce(f, '.')[0]|;
      assert g[i] == '.';
      assert LastDotAt(g, i);
      RSplitAtLastDot(g);
      LastDotUnique(g, i, |RSplitOnce(g, '.')[0]|);
      LowerSuffix(f, i + 1);
      LowerIdempotent(f[i + 1..]);
    } else {
      assert '.' !in g by {
        forall k | 0 <= k < |g| ensures g[k] != '.' {
          assert f[k] in f;
        }
      }
    }
  }

  /** Without a configured set exactly the `pdf` extension, in any case, is
      accepted. */
  lemma FallbackAcceptsOnlyPdf(filename: string)
    ensures AllowedFile(filename, None) <==>
      exists i :: LastDotAt(filename, i) && Lower(filename[i + 1..]) == "pdf"
  {
    AllowedFileIffLastExtension(filename, None);
  }

  /** With the configured set, a name is accepted iff its lower-cased last
      extension is one of the twenty listed values. */
  lemma ConfiguredAcceptsListed(stem: string, ext: string)
    requires '.' !in ext
    ensures AllowedFile(stem + "." + ext, Some(ConfiguredExtensions)) <==>
      Lower(ext) in {"pdf", "docx", "doc", "pptx", "ppt", "xlsx", "xls",
                     "txt", "md", "rst", "json", "yaml", "yml",
                     "eml", "msg", "png", "jpg", "jpeg", "tiff", "bmp"}
  {
    JudgedByLastExtension(stem, ext, Some(ConfiguredExtensions));
  }

  /** `Report.PDF` is accepted under the configured set. */
  lemma AcceptsUpperCasePdf()
    ensures AllowedFile("Report.PDF", Some(ConfiguredExtensions))
  {
    assert "Report.PDF" == "Report" + "." + "PDF";
    JudgedByLastExtension("Report", "PDF", Some(ConfiguredExtensions));
    assert Lower("PDF") == "pdf";
  }

  /** `a.b.txt` is judged by `txt` and accepted. */
  lemma AcceptsSeveralDots()
    ensures AllowedFile("a.b.txt", Some(ConfiguredExtensions))
  {
    assert "a.b.txt" == "a.b" + "." + "txt";
    JudgedByLastExtension("a.b", "txt", Some(ConfiguredExtensions));
    assert Lower("txt") == "txt";
  }

  /** `.pdf`, a name with an empty stem, is accepted. */
  lemma AcceptsEmptyStem()
    ensures AllowedFile(".pdf", Some(ConfiguredExtensions))
  {
    var f := ".pdf";
    assert LastDotAt(f, 0);
    assert f[1..] == "pdf";
    assert Lower("pdf") == "pdf";
    AllowedFileIffLastExtension(f, Some(ConfiguredExtensions));
  }

  /** `x.tar.gz` is judged by `gz` and rejected. */
  lemma RejectsCompoundExtension()
    ensures !AllowedFile("x.tar.gz", Some(ConfiguredExtensions))
  {
    assert "x.tar.gz" == "x.tar" + "." + "gz";
    JudgedByLastExtension("x.tar", "gz", Some(ConfiguredExtensions));
    assert Lower("gz") == "gz";
  }

  /** `report.pdf.exe` is judged by `exe` and rejected. */
  lemma RejectsDisguisedExtension()
    ensures !AllowedFile("report.pdf.exe", Some(ConfiguredExtensions))
  {
    assert "report.pdf.exe" == "report.pdf" + "." + "exe";
    JudgedByLastExtension("report.pdf", "exe", Some(ConfiguredExtensions));
    assert Lower("exe") == "exe";
    ExeNotConfigured();
  }

  /** Python lower-cases U+212A KELVIN SIGN to `k`, so a `.mKv` written with
      that sign is accepted when `mkv` is allowed. */
  lemma AcceptsKelvinSign()
    ensures AllowedFile("a.m\U{212A}v", Some({"mkv"}))
  {
    assert "a.m\U{212A}v" == "a" + "." + "m\U{212A}v";
    JudgedByLastExtension("a", "m\U{212A}v", Some({"mkv"}));
    assert Lower("m\U{212A}v") == "mkv";
  }

  /** `exe` is not one of the configured extensions. */
  lemma ExeNotConfigured()
    ensures "exe" !in ConfiguredExtensions
  {
    assert forall e :: e in ConfiguredExtensions && |e| == 3 ==> e[0] != 'e' || e[1] != 'x';
  }
}

=== FILE: routes.dfy ===
/** The `upload` and `chat` views of the page blueprint, as pure functions
    from an abstract request, the collaborators' behaviour and the host
    state to the response, the new host state and a trace of the steps
    taken. Flask's request, flash and redirect machinery is reduced to the
    response datatype. */
module Routes {
  import opened Base
  import opened Helpers
  import opened Text
  import VertexService
  import DocumentService

  datatype HttpMethod = Get | Post

  /** The `file` part of a multipart form; werkzeug allows its filename to
      be missing. */
  datatype FilePart = FilePart(filename: Option<string>)

  /** What `upload` reads from the request: the HTTP method, `request.files["file"]`
      if present, and `request.form.get("bucket_name")`. */
  datatype UploadRequest = UploadRequest(verb: HttpMethod, file: Option<FilePart>, bucketName: Option<string>)

  /** What a view ends in. `RedirectBack` flashes an error and redirects to
      the same URL; `ServerError` is an exception escaping the view. */
  datatype Response =
    | RedirectBack(flash: string)
    | RedirectToChat(corpusName: string, projectId: string)
    | RenderUploadForm
    | RedirectToIndex
    | RenderChat(corpusName: string)
    | ServerError(error: Exception)

  const NoFilePart: string := "No file part"
  const BucketRequired: string := "Bucket name is required"
  const NoSelectedFile: string := "No selected file"
  const NoTextContent: string := "No text content found in document"

  /** The flash text of the `except` clause: `f"Error: {str(e)}"`. */
  function ErrorFlash(e: Exception): string
  {
    "Error: " + Message(e)
  }

  /** How the collaborators behave on this request: the project id from
      the credentials file; whether the statements before `filepath` is
      bound (config write, `UPLOAD_FOLDER` lookup, `mkdir`) raise;
      `secure_filename`; the upload folder; whether `file.save` raises and
      whether it leaves a partial file behind; what `partition` yields; the
      two cleaners; whether `VertexService(config)` raises; what
      `create_corpus` yields (the corpus name); and the storage oracle that
      decides `import_chunks`. */
  datatype Collaborators = Collaborators(
    projectId: string,
    setupFault: Option<Exception>,
    secureFilename: string -> string,
    uploadDir: string,
    saveFault: Option<Exception>,
    saveLeavesFile: bool,
    partitioned: Result<seq<DocumentService.Element>>,
    clean: string -> string,
    quotes: string -> string,
    serviceFault: Option<Exception>,
    createdCorpus: Result<string>,
    storage: VertexService.Oracle)

  /** The state outside the request: files on local disk, the storage
      bucket with its call log, and the corpora the RAG service holds. */
  datatype Host = Host(files: set<string>, store: VertexService.Store, corpora: seq<string>)

  /** The side-effecting steps of `upload`, in the order taken. */
  datatype Step =
    | SaveAttempted(path: string)
    | Extracted(path: string)
    | CorpusCreated(corpus: string)
    | ImportCalled(corpus: string)
    | TempRemoved(path: string)

  datatype Handled = Handled(response: Response, host: Host, trace: seq<Step>)

  /** How the `try` body ended: with a `return` or an exception, the host
      state and steps so far, and `filepath` if it was bound. */
  datatype Body = Body(outcome: Result<Response>, host: Host, trace: seq<Step>, filepath: Option<string>)

  /** `upload_dir / secure_filename(file.filename)`. */
  function TempPath(env: Collaborators, filename: string): string
  {
    env.uploadDir + "/" + env.secureFilename(filename)
  }

  /** In a trace, every import immediately follows the creation of the
      same corpus. */
  predicate ImportsFollowCreation(t: seq<Step>)
  {
    forall i :: 0 <= i < |t| && t[i].ImportCalled? ==> i > 0 && t[i - 1] == CorpusCreated(t[i].corpus)
  }

  /** The facts every bound-`filepath` outcome of the `try` body keeps:
      `filepath` is the temporary path, the save was attempted on it and on
      nothing else, a corpus is created right before the import into it,
      no server error is returned, at most one corpus is added, and the
      store changes only once an import has been called. */
  predicate BoundBody(b: Body, path: string, h: Host)
  {
    && b.filepath == Some(path)
    && |b.trace| > 0 && b.trace[0] == SaveAttempted(path)
    && (forall i :: 0 < i < |b.trace| ==> !b.trace[i].SaveAttempted?)
    && ImportsFollowCreation(b.trace)
    && (b.outcome.Ok? ==> !b.outcome.value.ServerError?)
    && (b.host.corpora == h.corpora || (|b.host.corpora| == |h.corpora| + 1 && b.host.corpora[..|h.corpora|] == h.corpora))
    && (b.host.store != h.store ==> |b.host.corpora| == |h.corpora| + 1)
  }

  /** The `try` body of `upload`, lines 69-106. `filepath` is unbound exactly
      when the setup statements raise, and then nothing has happened. */
  function TryBody(filename: string, bucket: string, env: Collaborators, h: Host): (b: Body)
    ensures b.filepath.None? <==> env.setupFault.Some?
    ensures b.filepath.None? ==> b == Body(Raised(env.setupFault.value), h, [], None)
    ensures b.filepath.Some? ==> BoundBody(b, TempPath(env, filename), h)
    ensures b.filepath.Some? ==> b.host.files - {TempPath(env, filename)} == h.files - {TempPath(env, filename)}
  {
    if env.setupFault.Some? then Body(Raised(env.setupFault.value), h, [], None)
    else
      var name := env.secureFilename(filename);
      var path := TempPath(env, filename);
      match env.saveFault
      case Some(e) =>
        var files := if env.saveLeavesFile then h.files + {path} else h.files;
        Body(Raised(e), h.(files := files), [SaveAttempted(path)], Some(path))
      case None =>
        AfterSave(path, name, bucket, env, h.(files := h.files + {path}))
  }

  /** Lines 82-106, after a successful save: extract, stop on an empty
      result, otherwise build the service and create the corpus. */
  function AfterSave(path: string, name: string, bucket: string, env: Collaborators, saved: Host): (b: Body)
    ensures BoundBody(b, path, saved) && b.host.files == saved.files
  {
    var t := [SaveAttempted(path), Extracted(path)];
    match env.partitioned
    case Raised(e) => Body(Raised(e), saved, t, Some(path))
    case Ok(elements) =>
      var chunks := DocumentService.ProcessDocument(elements, env.clean, env.quotes);
      if |chunks| == 0 then Body(Ok(RedirectBack(NoTextContent)), saved, t, Some(path))
      else if env.serviceFault.Some? then Body(Raised(env.serviceFault.value), saved, t, Some(path))
      else
        match env.createdCorpus
        case Raised(e) => Body(Raised(e), saved, t, Some(path))
        case Ok(corpus) =>
          var run := VertexService.ImportChunks(UploadConfig(env, bucket, name), corpus, chunks, None, env.storage, saved.store);
          Imported(path, corpus, run, env, saved)
  }

  /** The configuration `upload` builds: the resolved project, the requested
      bucket, and the display name `corpus_<secure filename>`. */
  function UploadConfig(env: Collaborators, bucket: string, name: string): VertexService.RagConfig
  {
    VertexService.NewRagConfig(env.projectId, bucket, Some("corpus_" + name))
  }

  /** The run of `import_chunks` that an upload reaching the import makes. */
  function ImportRunOf(env: Collaborators, bucket: string, filename: string, h: Host,
                       elements: seq<DocumentService.Element>, corpus: string): VertexService.ImportRun
  {
    var chunks := DocumentService.ProcessDocument(elements, env.clean, env.quotes);
    var saved := h.(files := h.files + {TempPath(env, filename)});
    VertexService.ImportChunks(UploadConfig(env, bucket, env.secureFilename(filename)), corpus, chunks, None, env.storage, saved.store)
  }

  /** An accepted upload whose save, service construction and corpus
      creation pass, and whose extraction yields chunks, reaches the import. */
  lemma ReachesImport(f: string, bucket: string, env: Collaborators, h: Host,
                      elements: seq<DocumentService.Element>, corpus: string)
    requires env.setupFault.None? && env.saveFault.None? && env.partitioned == Ok(elements)
    requires env.serviceFault.None? && env.createdCorpus == Ok(corpus)
    ensures var saved := h.(files := h.files + {TempPath(env, f)});
      DocumentService.ProcessDocument(elements, env.clean, env.quotes) != [] ==>
      TryBody(f, bucket, env, h) == Imported(TempPath(env, f), corpus, ImportRunOf(env, bucket, f, h, elements, corpus), env, saved)
  {
  }

  /** An accepted upload whose extraction yields no chunks stops right after
      the extraction, before the service is built. */
  lemma ReachesEmptyExtraction(f: string, bucket: string, env: Collaborators, h: Host,
                               elements: seq<DocumentService.Element>)
    requires env.setupFault.None? && env.saveFault.None? && env.partitioned == Ok(elements)
    requires DocumentService.ProcessDocument(elements, env.clean, env.quotes) == []
    ensures var path := TempPath(env, f);
      TryBody(f, bucket, env, h) ==
        Body(Ok(RedirectBack(NoTextContent)), h.(files := h.files + {path}), [SaveAttempted(path), Extracted(path)], Some(path))
  {
  }

  /** Extracted chunks are all non-blank, so when there are any and no
      upload raises, the import's outcome is the bulk import's. */
  lemma ImportReturnsAsStorageDecides(f: string, bucket: string, env: Collaborators, h: Host,
                                      elements: seq<DocumentService.Element>, corpus: string)
    requires forall j :: j !in env.storage.uploadFaults
    ensures DocumentService.ProcessDocument(elements, env.clean, env.quotes) != [] ==>
      ImportRunOf(env, bucket, f, h, elements, corpus).outcome == env.storage.importFault
  {
    var chunks := DocumentService.ProcessDocument(elements, env.clean, env.quotes);
    if chunks != [] {
      assert !IsBlank(chunks[0]);
      var saved := h.(files := h.files + {TempPath(env, f)});
      VertexService.ImportOutcome(UploadConfig(env, bucket, env.secureFilename(f)), corpus, chunks, None, env.storage, saved.store);
    }
  }

  /** Extracted chunks are all non-blank, so the first of them is uploaded
      first: when that upload raises, `import_chunks` raises its exception. */
  lemma UploadFaultFailsImport(f: string, bucket: string, env: Collaborators, h: Host,
                               elements: seq<DocumentService.Element>, corpus: string)
    requires 0 in env.storage.uploadFaults
    ensures DocumentService.ProcessDocument(elements, env.clean, env.quotes) != [] ==>
      ImportRunOf(env, bucket, f, h, elements, corpus).outcome == Some(env.storage.uploadFaults[0])
  {
    var chunks := DocumentService.ProcessDocument(elements, env.clean, env.quotes);
    if chunks != [] {
      assert !IsBlank(chunks[0]);
    }
  }

  /** Lines 98-106: the corpus exists and `import_chunks` has run. */
  function Imported(path: string, corpus: string, run: VertexService.ImportRun, env: Collaborators, saved: Host): (b: Body)
    ensures BoundBody(b, path, saved) && b.host.files == saved.files
    ensures b.host == Host(saved.files, run.store, saved.corpora + [corpus])
    ensures run.outcome.None? ==> b.outcome == Ok(RedirectToChat(corpus, env.projectId))
    ensures run.outcome.Some? ==> b.outcome == Raised(run.outcome.value)
  {
    var after := Host(saved.files, run.store, saved.corpora + [corpus]);
    var t := [SaveAttempted(path), Extracted(path), CorpusCreated(corpus), ImportCalled(corpus)];
    assert after.corpora[..|saved.corpora|] == saved.corpora;
    match run.outcome
    case Some(e) => Body(Raised(e), after, t, Some(path))
    case None => Body(Ok(RedirectToChat(corpus, env.projectId)), after, t, Some(path))
  }

  /** How the `finally` clause treats `filepath`: as written it reads the
      variable unconditionally; guarded, it skips the cleanup when the
      variable was never bound. */
  datatype Cleanup = AsWritten | Guarded

  /** The `except` clause, then the `finally` clause. A pending return or
      the except clause's redirect is replaced by the exception the finally
      clause raises, if it raises one. */
  function Finish(b: Body, cleanup: Cleanup): (r: Handled)
    ensures b.filepath.Some? ==> b.filepath.value !in r.host.files
    ensures r.host.store == b.host.store && r.host.corpora == b.host.corpora
    ensures b.filepath.Some? ==> r.host.files == b.host.files - {b.filepath.value}
    ensures b.filepath.None? ==> r.host.files == b.host.files
    ensures r.trace == b.trace || (b.filepath.Some? && r.trace == b.trace + [TempRemoved(b.filepath.value)])
    ensures b.outcome.Ok? && b.filepath.Some? ==> r.response == b.outcome.value
    ensures b.outcome.Raised? && (b.filepath.Some? || cleanup == Guarded) ==>
      r.response == RedirectBack(ErrorFlash(b.outcome.error))
    ensures b.filepath.None? && cleanup == AsWritten ==> r.response == ServerError(UnboundLocalError("filepath"))
  {
    var response := match b.outcome
      case Ok(r) => r
      case Raised(e) => RedirectBack(ErrorFlash(e));
    match b.filepath
    case None =>
      if cleanup == AsWritten then Handled(ServerError(UnboundLocalError("filepath")), b.host, b.trace)
      else Handled(response, b.host, b.trace)
    case Some(p) =>
      if p in b.host.files then
        Handled(response, b.host.(files := b.host.files - {p}), b.trace + [TempRemoved(p)])
      else Handled(response, b.host, b.trace)
  }

  /** A non-empty `bucket_name` form field. */
  predicate HasBucket(req: UploadRequest)
  {
    req.bucketName.Some? && req.bucketName.value != ""
  }

  /** `upload()` with the application's configured extension set. */
  function Upload(req: UploadRequest, env: Collaborators, h: Host, cleanup: Cleanup): (r: Handled)
    ensures r.trace == [] ==> r.host == h
  {
    if req.verb == Get then Handled(RenderUploadForm, h, [])
    else if req.file.None? then Handled(RedirectBack(NoFilePart), h, [])
    else if !HasBucket(req) then Handled(RedirectBack(BucketRequired), h, [])
    else if req.file.value.filename == Some("") then Handled(RedirectBack(NoSelectedFile), h, [])
    else
      match req.file.value.filename
      case None => Handled(RenderUploadForm, h, [])
      case Some(f) =>
        if !AllowedFile(f, Some(ConfiguredExtensions)) then Handled(RenderUploadForm, h, [])
        else Finish(TryBody(f, req.bucketName.value, env, h), cleanup)
  }

  /** `chat()`: without a non-empty `corpus_name` argument, redirect to the
      index page. */
  function Chat(corpusName: Option<string>): (r: Response)
    ensures corpusName.None? || corpusName == Some("") ==> r == RedirectToIndex
    ensures r.RenderChat? ==> corpusName == Some(r.corpusName) && r.corpusName != ""
    ensures corpusName.Some? && corpusName.value != "" ==> r == RenderChat(corpusName.value)
  {
    match corpusName
    case None => RedirectToIndex
    case Some(c) => if c == "" then RedirectToIndex else RenderChat(c)
  }

  // ---------------------------------------------------------------------
  // Validation order

  /** A POST without a `file` part is turned away first, whatever else the
      request holds: nothing is saved, nothing changes. */
  lemma NoFilePartRejectedFirst(req: UploadRequest, env: Collaborators, h: Host, cleanup: Cleanup)
    requires req.verb == Post && req.file.None?
    ensures Upload(req, env, h, cleanup) == Handled(RedirectBack("No file part"), h, [])
  {
  }

  /** A missing or empty `bucket_name` is turned away before the file is
      looked at, so even an empty filename gets the bucket message. */
  lemma BucketCheckedBeforeFilename(req: UploadRequest, env: Collaborators, h: Host, cleanup: Cleanup)
    requires req.verb == Post && req.file.Some? && !HasBucket(req)
    ensures Upload(req, env, h, cleanup) == Handled(RedirectBack("Bucket name is required"), h, [])
  {
  }

  /** With a bucket given, an empty filename is turned away next. */
  lemma EmptyFilenameRejected(bucket: string, env: Collaborators, h: Host, cleanup: Cleanup)
    requires bucket != ""
    ensures Upload(UploadRequest(Post, Some(FilePart(Some(""))), Some(bucket)), env, h, cleanup)
      == Handled(RedirectBack("No selected file"), h, [])
  {
  }

  /** A disallowed extension saves nothing, creates no corpus, and falls
      through to rendering the upload form. */
  lemma DisallowedFileRendersForm(f: string, bucket: string, env: Collaborators, h: Host, cleanup: Cleanup)
    requires f != "" && bucket != "" && !AllowedFile(f, Some(ConfiguredExtensions))
    ensures Upload(UploadRequest(Post, Some(FilePart(Some(f))), Some(bucket)), env, h, cleanup)
      == Handled(RenderUploadForm, h, [])
  {
  }

  /** A file that reaches the `try` body is the accepted one: a step is
      taken only for a POST with a file part, a bucket, and an allowed,
      non-empty filename. */
  lemma StepsOnlyForValidRequests(req: UploadRequest, env: Collaborators, h: Host, cleanup: Cleanup)
    ensures Upload(req, env, h, cleanup).trace != [] ==>
      && req.verb == Post && req.file.Some? && HasBucket(req)
      && req.file.value.filename.Some?
      && AllowedFile(req.file.value.filename.value, Some(ConfiguredExtensions))
  {
  }

  // ---------------------------------------------------------------------
  // The try body and its cleanup

  /** An accepted POST runs the `try` body and then its cleanup. */
  lemma AcceptedRunsTryBody(f: string, bucket: string, env: Collaborators, h: Host, cleanup: Cleanup)
    requires bucket != "" && f != "" && AllowedFile(f, Some(ConfiguredExtensions))
    ensures Upload(UploadRequest(Post, Some(FilePart(Some(f))), Some(bucket)), env, h, cleanup)
      == Finish(TryBody(f, bucket, env, h), cleanup)
  {
  }

  /** Once the save has been attempted, the temporary file is gone when the
      view ends, on every path: success, empty extraction, or exception. */
  lemma SavedFileAlwaysRemoved(req: UploadRequest, env: Collaborators, h: Host, cleanup: Cleanup, p: string)
    ensures var r := Upload(req, env, h, cleanup);
      SaveAttempted(p) in r.trace ==> p !in r.host.files
  {
    if SaveAttempted(p) in Upload(req, env, h, cleanup).trace {
      var b := SavedOn(req, env, h, cleanup, p);
    }
  }

  /** The cleanup removes the temporary file and nothing else: once the save
      was attempted, the local files at the end are those before the
      request, less the temporary path. */
  lemma SavedFileOnlyChange(req: UploadRequest, env: Collaborators, h: Host, cleanup: Cleanup, p: string)
    ensures var r := Upload(req, env, h, cleanup);
      SaveAttempted(p) in r.trace ==> r.host.files == h.files - {p}
  {
    if SaveAttempted(p) in Upload(req, env, h, cleanup).trace {
      var b := SavedOn(req, env, h, cleanup, p);
    }
  }

  /** A run whose trace shows a save on `p` is the cleanup of a `try` body
      that bound `filepath` to `p`. */
  lemma SavedOn(req: UploadRequest, env: Collaborators, h: Host, cleanup: Cleanup, p: string) returns (b: Body)
    requires SaveAttempted(p) in Upload(req, env, h, cleanup).trace
    ensures Upload(req, env, h, cleanup) == Finish(b, cleanup)
    ensures b.filepath == Some(p) && b.host.files - {p} == h.files - {p}
  {
    StepsOnlyForValidRequests(req, env, h, cleanup);
    var f := req.file.value.filename.value;
    var bucket := req.bucketName.value;
    assert f != "";
    assert req == UploadRequest(Post, Some(FilePart(Some(f))), Some(bucket));
    AcceptedRunsTryBody(f, bucket, env, h, cleanup);
    b := TryBody(f, bucket, env, h);
    assert b.filepath.Some?;
    var i :| 0 <= i < |Finish(b, cleanup).trace| && Finish(b, cleanup).trace[i] == SaveAttempted(p);
    assert i == 0;
  }

  /** The steps of `upload` that are calls: in every trace, an import is
      immediately preceded by the creation of the same corpus. */
  lemma CorpusCreatedBeforeImport(req: UploadRequest, env: Collaborators, h: Host, cleanup: Cleanup)
    ensures var t := Upload(req, env, h, cleanup).trace;
      forall i :: 0 <= i < |t| && t[i].ImportCalled? ==> i > 0 && t[i - 1] == CorpusCreated(t[i].corpus)
  {
    var t := Upload(req, env, h, cleanup).trace;
    if t != [] {
      StepsOnlyForValidRequests(req, env, h, cleanup);
      var f := req.file.value.filename.value;
      var bucket := req.bucketName.value;
      assert f != "";
      assert req == UploadRequest(Post, Some(FilePart(Some(f))), Some(bucket));
      AcceptedRunsTryBody(f, bucket, env, h, cleanup);
      var b := TryBody(f, bucket, env, h);
      assert ImportsFollowCreation(b.trace);
      assert t == b.trace || t == b.trace + [TempRemoved(b.filepath.value)];
    }
  }

  /** An extraction that yields no chunks ends with the "no text" message:
      no corpus is created, the bucket is untouched, and the temporary file
      is removed. */
  lemma EmptyExtractionCreatesNoCorpus(f: string, bucket: string, env: Collaborators, h: Host,
                                       cleanup: Cleanup, elements: seq<DocumentService.Element>)
    requires bucket != "" && f != "" && AllowedFile(f, Some(ConfiguredExtensions))
    requires env.setupFault.None? && env.saveFault.None? && env.partitioned == Ok(elements)
    requires DocumentService.ProcessDocument(elements, env.clean, env.quotes) == []
    ensures var r := Upload(UploadRequest(Post, Some(FilePart(Some(f))), Some(bucket)), env, h, cleanup);
      && r.response == RedirectBack("No text content found in document")
      && r.host == Host(h.files - {TempPath(env, f)}, h.store, h.corpora)
      && forall i :: 0 <= i < |r.trace| ==> !r.trace[i].CorpusCreated?
  {
    var path := TempPath(env, f);
    AcceptedRunsTryBody(f, bucket, env, h, cleanup);
    ReachesEmptyExtraction(f, bucket, env, h, elements);
    var b := TryBody(f, bucket, env, h);
    var r := Finish(b, cleanup);
    assert r == Handled(RedirectBack(NoTextContent), h.(files := (h.files + {path}) - {path}), b.trace + [TempRemoved(path)]);
    assert (h.files + {path}) - {path} == h.files - {path};
  }

  /** When the extraction yields chunks and `import_chunks` raises, whether
      an upload or the bulk import failed, the error is reported through the
      flash message, and the corpus created just before it is left in place. */
  lemma ImportFailureKeepsCorpus(f: string, bucket: string, env: Collaborators, h: Host,
                                 cleanup: Cleanup, elements: seq<DocumentService.Element>,
                                 corpus: string, e: Exception)
    requires bucket != "" && f != "" && AllowedFile(f, Some(ConfiguredExtensions))
    requires env.setupFault.None? && env.saveFault.None? && env.partitioned == Ok(elements)
    requires env.serviceFault.None? && env.createdCorpus == Ok(corpus)
    ensures var r := Upload(UploadRequest(Post, Some(FilePart(Some(f))), Some(bucket)), env, h, cleanup);
      DocumentService.ProcessDocument(elements, env.clean, env.quotes) != [] &&
      ImportRunOf(env, bucket, f, h, elements, corpus).outcome == Some(e) ==>
      && r.response == RedirectBack("Error: " + Message(e))
      && r.host.corpora == h.corpora + [corpus]
      && TempPath(env, f) !in r.host.files
  {
    if DocumentService.ProcessDocument(elements, env.clean, env.quotes) != [] &&
       ImportRunOf(env, bucket, f, h, elements, corpus).outcome == Some(e) {
      AcceptedRunsTryBody(f, bucket, env, h, cleanup);
      ReachesImport(f, bucket, env, h, elements, corpus);
      var b := TryBody(f, bucket, env, h);
      assert b.outcome == Raised(e) && b.filepath == Some(TempPath(env, f));
      assert b.host.corpora == h.corpora + [corpus];
    }
  }

  /** When the extraction yields chunks and every call passes, the view
      redirects to the chat page of the corpus just created, with the
      resolved project id, and the chat page then renders that corpus. */
  lemma SuccessRedirectsToNewCorpus(f: string, bucket: string, env: Collaborators, h: Host,
                                    cleanup: Cleanup, elements: seq<DocumentService.Element>,
                                    corpus: string)
    requires bucket != "" && f != "" && AllowedFile(f, Some(ConfiguredExtensions)) && corpus != ""
    requires env.setupFault.None? && env.saveFault.None? && env.partitioned == Ok(elements)
    requires env.serviceFault.None? && env.createdCorpus == Ok(corpus)
    requires forall j :: j !in env.storage.uploadFaults
    requires env.storage.importFault.None?
    ensures var r := Upload(UploadRequest(Post, Some(FilePart(Some(f))), Some(bucket)), env, h, cleanup);
      DocumentService.ProcessDocument(elements, env.clean, env.quotes) != [] ==>
      && r.response == RedirectToChat(corpus, env.projectId)
      && r.host.corpora == h.corpora + [corpus]
      && Chat(Some(r.response.corpusName)) == RenderChat(corpus)
  {
    if DocumentService.ProcessDocument(elements, env.clean, env.quotes) != [] {
      AcceptedRunsTryBody(f, bucket, env, h, cleanup);
      ReachesImport(f, bucket, env, h, elements, corpus);
      ImportReturnsAsStorageDecides(f, bucket, env, h, elements, corpus);
      var b := TryBody(f, bucket, env, h);
      assert b.outcome == Ok(RedirectToChat(corpus, env.projectId)) && b.filepath.Some?;
    }
  }

  // ---------------------------------------------------------------------
  // The unbound `filepath` in the `finally` clause

  /** As written: when a statement before `filepath` is bound raises (the
      config write, the `UPLOAD_FOLDER` lookup, `mkdir`), the `finally`
      clause reads the unbound variable, and its `UnboundLocalError` replaces
      the `except` clause's redirect: the response is a server error instead
      of the redirect. The `Error: ...` message that clause flashed is still
      queued for a later page; the model keeps no flash queue. */
  lemma SetupFaultMaskedAsWritten(f: string, bucket: string, env: Collaborators, h: Host)
    requires bucket != "" && f != "" && AllowedFile(f, Some(ConfiguredExtensions))
    requires env.setupFault.Some?
    ensures Upload(UploadRequest(Post, Some(FilePart(Some(f))), Some(bucket)), env, h, AsWritten)
      == Handled(ServerError(UnboundLocalError("filepath")), h, [])
  {
    AcceptedRunsTryBody(f, bucket, env, h, AsWritten);
  }

  /** Guarded: the same failure is reported like every other exception in
      the `try` body, through the flash message, and nothing changes. */
  lemma SetupFaultReportedGuarded(f: string, bucket: string, env: Collaborators, h: Host)
    requires bucket != "" && f != "" && AllowedFile(f, Some(ConfiguredExtensions))
    requires env.setupFault.Some?
    ensures Upload(UploadRequest(Post, Some(FilePart(Some(f))), Some(bucket)), env, h, Guarded)
      == Handled(RedirectBack("Error: " + Message(env.setupFault.value)), h, [])
  {
    AcceptedRunsTryBody(f, bucket, env, h, Guarded);
  }

  /** With the guarded cleanup no exception escapes the view; as written,
      one escapes exactly when the setup statements raise for an accepted
      file. */
  lemma ServerErrorOnlyFromUnboundFilepath(req: UploadRequest, env: Collaborators, h: Host)
    ensures !Upload(req, env, h, Guarded).response.ServerError?
    ensures Upload(req, env, h, AsWritten).response.ServerError? <==>
      && req.verb == Post && req.file.Some? && HasBucket(req)
      && req.file.value.filename.Some? && req.file.value.filename.value != ""
      && AllowedFile(req.file.value.filename.value, Some(ConfiguredExtensions))
      && env.setupFault.Some?
  {
  }
}

=== FILE: text.dfy ===
/** The parts of Python's `str` that the modelled code relies on: `isspace`,
    `strip`, `lower`, `rsplit(sep, 1)` and `replace`. Strings are sequences of
    Unicode code points, as Python's are. */
module Text {
  import opened Base

  /** Python's `str.isspace()` for one code point: the characters whose
      bidirectional class is WS, B or S, or whose category is Zs. */
  predicate IsSpace(c: char)
  {
    || ('\t' <= c <= '\r')
    || ('\U{001C}' <= c <= ' ')
    || c == '\U{0085}' || c == '\U{00A0}' || c == '\U{1680}'
    || ('\U{2000}' <= c <= '\U{200A}')
    || c == '\U{2028}' || c == '\U{2029}' || c == '\U{202F}'
    || c == '\U{205F}' || c == '\U{3000}'
  }

  /** `not s.strip()`: the string is empty or all whitespace. */
  predicate IsBlank(s: string)
  {
    forall i :: 0 <= i < |s| ==> IsSpace(s[i])
  }

  /** `s.lstrip()`: drops the leading whitespace and nothing else. */
  function TrimLeft(s: string): (r: string)
    ensures |r| <= |s| && r == s[|s| - |r|..]
    ensures forall i :: 0 <= i < |s| - |r| ==> IsSpace(s[i])
    ensures r == [] || !IsSpace(r[0])
  {
    if |s| > 0 && IsSpace(s[0]) then TrimLeft(s[1..]) else s
  }

  /** `s.rstrip()`: drops the trailing whitespace and nothing else. */
  function TrimRight(s: string): (r: string)
    ensures |r| <= |s| && r == s[..|r|]
    ensures forall i :: |r| <= i < |s| ==> IsSpace(s[i])
    ensures r == [] || !IsSpace(r[|r| - 1])
  {
    if |s| > 0 && IsSpace(s[|s| - 1]) then TrimRight(s[..|s| - 1]) else s
  }

  /** `r` is the infix of `s` at offset `i`, and everything of `s` outside
      that infix is whitespace. */
  predicate StripsTo(s: string, i: int, r: string)
  {
    && 0 <= i <= |s| - |r|
    && r == s[i..i + |r|]
    && (forall k :: 0 <= k < i ==> IsSpace(s[k]))
    && (forall k :: i + |r| <= k < |s| ==> IsSpace(s[k]))
  }

  /** `s.strip()`: the longest infix of `s` that neither starts nor ends
      with whitespace; empty exactly when `s` is blank. */
  function Strip(s: string): (r: string)
    ensures r == [] <==> IsBlank(s)
    ensures r != [] ==> !IsSpace(r[0]) && !IsSpace(r[|r| - 1])
  {
    StripShape(s);
    TrimRight(TrimLeft(s))
  }

  /** `strip` removes whitespace only, and only at the two ends: its result
      is an infix of its input with nothing but whitespace around it. */
  lemma StripRemovesOnlyEndSpace(s: string)
    ensures exists i :: StripsTo(s, i, Strip(s))
  {
    StripShape(s);
    assert StripsTo(s, |s| - |TrimLeft(s)|, Strip(s));
  }

  /** Why `strip` is blank-exact and yields an infix of its input. */
  lemma StripShape(s: string)
    ensures var r := TrimRight(TrimLeft(s));
      && (r == [] <==> IsBlank(s))
      && StripsTo(s, |s| - |TrimLeft(s)|, r)
  {
    var t := TrimLeft(s);
    var r := TrimRight(t);
    TrimBoth(s, t, r);
  }

  /** The same, stated over the two intermediate results. */
  lemma TrimBoth(s: string, t: string, r: string)
    requires |t| <= |s| && t == s[|s| - |t|..]
    requires forall i :: 0 <= i < |s| - |t| ==> IsSpace(s[i])
    requires t == [] || !IsSpace(t[0])
    requires |r| <= |t| && r == t[..|r|]
    requires forall i :: |r| <= i < |t| ==> IsSpace(t[i])
    ensures r == [] <==> IsBlank(s)
    ensures StripsTo(s, |s| - |t|, r)
  {
    var a := |s| - |t|;
    assert r == s[a..a + |r|];
    forall k | a + |r| <= k < |s| ensures IsSpace(s[k]) {
      assert s[k] == t[k - a];
    }
    if r != [] {
      assert s[a] == t[0];
    }
  }

  /** No whitespace at either end. */
  predicate IsStripped(s: string)
  {
    |s| > 0 ==> !IsSpace(s[0]) && !IsSpace(s[|s| - 1])
  }

  /** A string equals its own `strip()` exactly when it has no whitespace
      at either end. */
  lemma StrippedIffFixed(s: string)
    ensures IsStripped(s) <==> Strip(s) == s
  {
    if IsStripped(s) && |s| > 0 {
      assert TrimLeft(s) == s;
      assert TrimRight(s) == s;
    }
  }

  /** `strip` is idempotent: a stripped string equals its own `strip()`. */
  lemma StripIdempotent(s: string)
    ensures Strip(Strip(s)) == Strip(s)
  {
    var r := Strip(s);
    if r != [] {
      assert TrimLeft(r) == r;
      assert TrimRight(r) == r;
    }
  }

  /** Python's lower-casing of one character, for the characters whose
      lower case is ASCII: the capital letters and U+212A KELVIN SIGN. */
  function LowerChar(c: char): char
  {
    if 'A' <= c <= 'Z' then (c as int + 32) as char
    else if c == '\U{212A}' then 'k'
    else c
  }

  /** `s.lower()`, for the characters LowerChar covers. */
  function Lower(s: string): (r: string)
  {
    seq(|s|, i requires 0 <= i < |s| => LowerChar(s[i]))
  }

  /** Lower-casing never creates or removes a given non-letter, such as `.`. */
  lemma LowerKeepsNonLetter(s: string, c: char)
    requires !('A' <= c <= 'Z') && !('a' <= c <= 'z') && c != '\U{212A}'
    ensures forall i :: 0 <= i < |s| ==> (Lower(s)[i] == c <==> s[i] == c)
  {
  }

  /** Lower-casing commutes with taking a suffix. */
  lemma LowerSuffix(s: string, i: nat)
    requires i <= |s|
    ensures Lower(s[i..]) == Lower(s)[i..]
  {
  }

  /** The index of the last occurrence of `c` in `s`, if any. */
  function LastIndexOf(s: string, c: char): (r: Option<nat>)
    ensures r.None? <==> c !in s
    ensures r.Some? ==> r.value < |s| && s[r.value] == c
    ensures r.Some? ==> forall j :: r.value < j < |s| ==> s[j] != c
  {
    if |s| == 0 then None
    else if s[|s| - 1] == c then Some(|s| - 1)
    else
      var r := LastIndexOf(s[..|s| - 1], c);
      assert c in s ==> c in s[..|s| - 1] by {
        if c in s {
          var k :| 0 <= k < |s| && s[k] == c;
          assert s[..|s| - 1][k] == c;
        }
      }
      r
  }

  /** `s.rsplit(sep, 1)`: one piece when `sep` does not occur, otherwise the
      text before and the text after the LAST occurrence. */
  function RSplitOnce(s: string, sep: char): (r: seq<string>)
    ensures sep !in s <==> |r| == 1
    ensures |r| == 1 ==> r[0] == s
    ensures |r| == 1 || |r| == 2
    ensures |r| == 2 ==> s == r[0] + [sep] + r[1] && sep !in r[1]
  {
    match LastIndexOf(s, sep)
    case None => [s]
    case Some(i) =>
      assert s == s[..i] + [sep] + s[i + 1..];
      var tail := s[i + 1..];
      assert forall j :: 0 <= j < |tail| ==> tail[j] == s[i + 1 + j];
      [s[..i], tail]
  }

  /** `s.replace(pat, rep)`: every non-overlapping occurrence of `pat`,
      scanning left to right, is replaced by `rep`. */
  function ReplaceAll(s: string, pat: string, rep: string): (r: string)
    requires |pat| > 0
    ensures rep == [] ==> |r| <= |s|
    decreases |s|
  {
    if |s| < |pat| then s
    else if s[..|pat|] == pat then rep + ReplaceAll(s[|pat|..], pat, rep)
    else [s[0]] + ReplaceAll(s[1..], pat, rep)
  }

  /** A string lacking a character of the pattern contains no occurrence,
      so `replace` leaves it as it is. */
  lemma {:induction false} ReplaceAllAbsent(s: string, pat: string, rep: string, mark: char)
    requires |pat| > 0 && mark in pat && mark !in s
    ensures ReplaceAll(s, pat, rep) == s
    decreases |s|
  {
    if |s| < |pat| {
    } else {
      var k :| 0 <= k < |pat| && pat[k] == mark;
      assert s[..|pat|] != pat by {
        assert s[..|pat|][k] == s[k];
        assert s[k] != mark;
      }
      assert mark !in s[1..];
      ReplaceAllAbsent(s[1..], pat, rep, mark);
      assert [s[0]] + s[1..] == s;
    }
  }

  /** Removing a prefix with `replace(prefix, "")` recovers the rest of the
      string when the rest lacks a character of the prefix. */
  lemma ReplaceRemovesPrefix(pat: string, s: string, mark: char)
    requires |pat| > 0 && mark in pat && mark !in s
    ensures ReplaceAll(pat + s, pat, "") == s
  {
    var t := pat + s;
    assert t[..|pat|] == pat;
    assert t[|pat|..] == s;
    assert ReplaceAll(t, pat, "") == "" + ReplaceAll(s, pat, "");
    ReplaceAllAbsent(s, pat, "", mark);
  }
}

=== FILE: vertex_service.dfy ===
/** `VertexService`: the RAG configuration record, the naming of the blobs
    that carry chunks, `import_chunks` with its compensating cleanup, and
    `delete_files`. The storage bucket is a set of blob names; every call
    into the cloud SDK is an entry in an effect log whose success or failure
    is decided by an oracle. */
module VertexService {
  import opened Base
  import opened Text

  /** `RagConfig`: an immutable per-request configuration record. */
  datatype RagConfig = RagConfig(
    projectId: string,
    bucketName: string,
    location: string,
    displayName: string,
    embeddingModel: string,
    chunkSize: int,
    chunkOverlap: int)

  const DefaultLocation: string := "us-central1"
  const DefaultDisplayName: string := "default_corpus"
  const DefaultEmbeddingModel: string := "textembedding-gecko-multilingual@001"
  const DefaultChunkSize: int := 512
  const DefaultChunkOverlap: int := 100

  /** `RagConfig(project_id=..., bucket_name=..., [display_name=...])`: the
      fields not passed take their declared defaults. */
  function NewRagConfig(projectId: string, bucketName: string, displayName: Option<string>): (c: RagConfig)
    ensures c.projectId == projectId && c.bucketName == bucketName
    ensures displayName.Some? ==> c.displayName == displayName.value
    ensures displayName.None? ==> c.displayName == "default_corpus"
    ensures c.location == "us-central1"
    ensures c.embeddingModel == "textembedding-gecko-multilingual@001"
    ensures c.chunkSize == 512 && c.chunkOverlap == 100
  {
    RagConfig(
      projectId, bucketName, DefaultLocation,
      match displayName case Some(d) => d case None => DefaultDisplayName,
      DefaultEmbeddingModel, DefaultChunkSize, DefaultChunkOverlap)
  }

  // ---------------------------------------------------------------------
  // Blob names and storage URIs

  /** The blob `_upload_to_gcs` writes for a fresh identifier. */
  function BlobName(id: string): (b: string)
  {
    "rag-documents/" + id + ".txt"
  }

  /** `f"gs://{bucket_name}/"`. */
  function UriPrefix(bucket: string): string
  {
    "gs://" + bucket + "/"
  }

  /** The URI `_upload_to_gcs` returns for a blob. */
  function GcsUri(bucket: string, blob: string): (u: string)
    ensures |u| == |UriPrefix(bucket)| + |blob|
    ensures u[..|UriPrefix(bucket)|] == UriPrefix(bucket) && u[|UriPrefix(bucket)|..] == blob
  {
    UriPrefix(bucket) + blob
  }

  /** The cleanup's `uri.replace(f"gs://{bucket_name}/", "")`. */
  function BlobNameOfUri(bucket: string, uri: string): string
  {
    ReplaceAll(uri, UriPrefix(bucket), "")
  }

  /** The text of `str(uuid.uuid4())`: lower-case hexadecimal digits and dashes. */
  predicate IsUuidText(id: string)
  {
    forall i :: 0 <= i < |id| ==> id[i] in "0123456789abcdef-"
  }

  /** Every URI has the form `gs://<bucket>/rag-documents/<id>.txt`. */
  lemma UriForm(bucket: string, id: string)
    ensures GcsUri(bucket, BlobName(id)) == "gs://" + bucket + "/rag-documents/" + id + ".txt"
  {
    assert "/" + "rag-documents/" == "/rag-documents/";
    calc {
      GcsUri(bucket, BlobName(id));
      ("gs://" + bucket + "/") + ("rag-documents/" + id + ".txt");
      ("gs://" + bucket) + ("/" + "rag-documents/") + id + ".txt";
    }
  }

  /** Removing the `gs://<bucket>/` prefix from the URI of an uploaded blob
      recovers exactly that blob's name. */
  lemma UriRoundTrip(bucket: string, id: string)
    requires IsUuidText(id)
    ensures BlobNameOfUri(bucket, GcsUri(bucket, BlobName(id))) == BlobName(id)
  {
    var blob := BlobName(id);
    var prefix := UriPrefix(bucket);
    assert prefix == "gs:" + ("//" + bucket + "/");
    assert ':' in prefix;
    BlobNameHasNoColon(id);
    ReplaceRemovesPrefix(prefix, blob, ':');
  }

  /** No part of a blob name made from uuid text holds a `:`. */
  lemma BlobNameHasNoColon(id: string)
    requires IsUuidText(id)
    ensures ':' !in BlobName(id)
  {
    var folder := "rag-documents/";
    var suffix := ".txt";
    assert ':' !in folder;
    assert ':' !in suffix;
    assert ':' !in id by {
      forall i | 0 <= i < |id| ensures id[i] != ':' {
        assert id[i] in "0123456789abcdef-";
      }
    }
    assert BlobName(id) == folder + id + suffix;
  }

  // ---------------------------------------------------------------------
  // The environment of one `import_chunks` call

  /** What the model cannot see, decided in advance: the identifier
      `uuid.uuid4()` yields for the k-th upload, the uploads, the bulk import
      and the compensating deletes that raise. */
  datatype Oracle = Oracle(
    nextId: nat -> string,
    uploadFaults: map<nat, Exception>,
    importFault: Option<Exception>,
    deleteFaults: set<nat>)

  /** One call into the storage or RAG service. */
  datatype Effect =
    | Uploaded(blob: string, content: string, succeeded: bool)
    | ImportRequested(corpus: string, uris: seq<string>, chunkSize: int, chunkOverlap: int)
    | DeleteAttempted(blob: string, succeeded: bool)

  /** The bucket's blob names and the log of calls made so far. */
  datatype Store = Store(blobs: set<string>, log: seq<Effect>)

  /** How the upload loop ended: the URIs collected, the store, and the
      exception an upload raised, if one did. */
  datatype Uploads = Uploads(uris: seq<string>, store: Store, fault: Option<Exception>)

  /** The outcome of `import_chunks`: it returned, or it raised. */
  datatype ImportRun = ImportRun(store: Store, outcome: Option<Exception>)

  const NoValidChunks: string := "No valid chunks to import"

  /** The chunks `import_chunks` uploads, in order: those whose `strip()`
      is non-empty. */
  function NonBlank(chunks: seq<string>): (r: seq<string>)
    ensures |r| <= |chunks|
    ensures forall i :: 0 <= i < |r| ==> !IsBlank(r[i])
    ensures r == [] <==> forall i :: 0 <= i < |chunks| ==> IsBlank(chunks[i])
  {
    if |chunks| == 0 then []
    else
      var rest := NonBlank(chunks[1..]);
      assert forall i :: 1 <= i < |chunks| ==> chunks[i] == chunks[1..][i - 1];
      if IsBlank(chunks[0]) then rest else [chunks[0]] + rest
  }

  /** The number of calls, starting with the k-th, that pass before one of
      them raises; `n` when none of the next `n` raises. */
  function FirstFault(faults: map<nat, Exception>, k: nat, n: nat): (m: nat)
    ensures m <= n
    ensures forall j :: k <= j < k + m ==> j !in faults
    ensures m < n ==> k + m in faults
    decreases n
  {
    if n == 0 || k in faults then 0 else 1 + FirstFault(faults, k + 1, n - 1)
  }

  /** The blob names of uploads k .. k+n-1. */
  function BlobsOf(o: Oracle, k: nat, n: nat): set<string>
  {
    set j | k <= j < k + n :: BlobName(o.nextId(j))
  }

  /** The URIs of uploads k .. k+n-1, in order. */
  function UrisOf(bucket: string, o: Oracle, k: nat, n: nat): seq<string>
  {
    seq(n, j requires 0 <= j < n => GcsUri(bucket, BlobName(o.nextId(k + j))))
  }

  /** The log entries of uploading `cs` as uploads k, k+1, ..., all passing. */
  function UploadLog(cs: seq<string>, o: Oracle, k: nat): seq<Effect>
  {
    seq(|cs|, j requires 0 <= j < |cs| => Uploaded(BlobName(o.nextId(k + j)), cs[j], true))
  }

  /** The log entry of the raising upload, when the m-th of `cs` (counted
      from upload k) is one; nothing when all of them pass. */
  function FailedUpload(cs: seq<string>, o: Oracle, k: nat, m: nat): seq<Effect>
  {
    if m < |cs| then [Uploaded(BlobName(o.nextId(k + m)), cs[m], false)] else []
  }

  /** The upload loop of `import_chunks`: each non-blank chunk is uploaded
      by `_upload_to_gcs` and its URI appended; `k` counts the uploads made.
      An upload that raises ends the loop, and the exception propagates. */
  function UploadChunks(bucket: string, chunks: seq<string>, o: Oracle, k: nat, s: Store): (u: Uploads)
    ensures s.blobs <= u.store.blobs
    ensures u.fault.None? ==> |u.uris| == |NonBlank(chunks)|
    decreases |chunks|
  {
    if |chunks| == 0 then Uploads([], s, None)
    else if IsBlank(chunks[0]) then UploadChunks(bucket, chunks[1..], o, k, s)
    else if k in o.uploadFaults then
      Uploads([], Store(s.blobs, s.log + [Uploaded(BlobName(o.nextId(k)), chunks[0], false)]), Some(o.uploadFaults[k]))
    else
      var blob := BlobName(o.nextId(k));
      var rest := UploadChunks(bucket, chunks[1..], o, k + 1,
                               Store(s.blobs + {blob}, s.log + [Uploaded(blob, chunks[0], true)]));
      Uploads([GcsUri(bucket, blob)] + rest.uris, rest.store, rest.fault)
  }

  /** The compensating loop: for each URI, in order, delete the blob whose
      name the URI yields; a delete that raises is ignored and the loop goes
      on. `j` counts the deletes attempted. */
  function Compensate(bucket: string, uris: seq<string>, o: Oracle, j: nat, s: Store): (r: Store)
    ensures r.blobs <= s.blobs
    ensures |r.log| == |s.log| + |uris|
    decreases |uris|
  {
    if |uris| == 0 then s
    else
      var blob := BlobNameOfUri(bucket, uris[0]);
      var ok := j !in o.deleteFaults;
      Compensate(bucket, uris[1..], o, j + 1,
                 Store(if ok then s.blobs - {blob} else s.blobs, s.log + [DeleteAttempted(blob, ok)]))
  }

  /** `chunk_size or self.config.chunk_size`: a missing or zero request
      falls back to the configured size. */
  function EffectiveChunkSize(requested: Option<int>, cfg: RagConfig): (r: int)
    ensures r == cfg.chunkSize || requested == Some(r)
    ensures r == 0 ==> cfg.chunkSize == 0
    ensures requested.Some? && requested.value != 0 ==> r == requested.value
  {
    match requested
    case None => cfg.chunkSize
    case Some(n) => if n == 0 then cfg.chunkSize else n
  }

  /** `import_chunks(corpus, chunks, chunk_size)`. */
  function ImportChunks(cfg: RagConfig, corpus: string, chunks: seq<string>, chunkSize: Option<int>,
                        o: Oracle, s: Store): (r: ImportRun)
    ensures r.outcome.None? ==> NonBlank(chunks) != [] && s.blobs <= r.store.blobs
  {
    var size := EffectiveChunkSize(chunkSize, cfg);
    var up := UploadChunks(cfg.bucketName, chunks, o, 0, s);
    if up.fault.Some? then ImportRun(up.store, up.fault)
    else if |up.uris| == 0 then ImportRun(up.store, Some(ValueError(NoValidChunks)))
    else
      var imported := Store(up.store.blobs,
                            up.store.log + [ImportRequested(corpus, up.uris, size, cfg.chunkOverlap)]);
      match o.importFault
      case None => ImportRun(imported, None)
      case Some(e) => ImportRun(Compensate(cfg.bucketName, up.uris, o, 0, imported), Some(e))
  }

  // ---------------------------------------------------------------------
  // The upload loop

  lemma BlobsOfStep(o: Oracle, k: nat, n: nat)
    ensures BlobsOf(o, k, n + 1) == {BlobName(o.nextId(k))} + BlobsOf(o, k + 1, n)
  {
    var lhs := BlobsOf(o, k, n + 1);
    var rhs := {BlobName(o.nextId(k))} + BlobsOf(o, k + 1, n);
    forall b | b in lhs ensures b in rhs {
      var j :| k <= j < k + n + 1 && b == BlobName(o.nextId(j));
      if j != k {
        assert b in BlobsOf(o, k + 1, n);
      }
    }
    forall b | b in rhs ensures b in lhs {
      if b in BlobsOf(o, k + 1, n) {
        var j :| k + 1 <= j < k + 1 + n && b == BlobName(o.nextId(j));
        assert k <= j < k + n + 1;
      }
    }
  }

  lemma UploadLogStep(c: string, cs: seq<string>, o: Oracle, k: nat)
    ensures UploadLog([c] + cs, o, k) == [Uploaded(BlobName(o.nextId(k)), c, true)] + UploadLog(cs, o, k + 1)
  {
  }

  lemma UrisOfStep(bucket: string, o: Oracle, k: nat, n: nat)
    ensures UrisOf(bucket, o, k, n + 1) == [GcsUri(bucket, BlobName(o.nextId(k)))] + UrisOf(bucket, o, k + 1, n)
  {
  }

  /** `u` is what uploading the chunks `cs` as uploads k, k+1, ... from
      store `s` ends in: the uploads before the first raising one are in
      the bucket and the log, that upload's exception is passed on, and
      when none raises the URIs are collected in order. */
  predicate UploadsMatch(u: Uploads, bucket: string, cs: seq<string>, o: Oracle, k: nat, s: Store)
  {
    var m := FirstFault(o.uploadFaults, k, |cs|);
    && u.store == Store(s.blobs + BlobsOf(o, k, m), s.log + UploadLog(cs[..m], o, k) + FailedUpload(cs, o, k, m))
    && u.fault == (if m < |cs| then Some(o.uploadFaults[k + m]) else None)
    && (m == |cs| ==> u.uris == UrisOf(bucket, o, k, m))
  }

  /** The upload loop uploads exactly the non-blank chunks, each once and in
      order, as uploads k, k+1, ..., until the first upload that raises;
      the blobs uploaded before it stay in the bucket and the exception is
      passed on. When none raises, the URIs are collected in chunk order. */
  lemma UploadChunksEffect(bucket: string, chunks: seq<string>, o: Oracle, k: nat, s: Store)
    ensures var u := UploadChunks(bucket, chunks, o, k, s);
      var nb := NonBlank(chunks);
      var m := FirstFault(o.uploadFaults, k, |nb|);
      && u.store == Store(s.blobs + BlobsOf(o, k, m), s.log + UploadLog(nb[..m], o, k) + FailedUpload(nb, o, k, m))
      && u.fault == (if m < |nb| then Some(o.uploadFaults[k + m]) else None)
      && (m == |nb| ==> u.uris == UrisOf(bucket, o, k, m))
  {
    UploadChunksMatch(bucket, chunks, o, k, s);
  }

  lemma {:induction false} UploadChunksMatch(bucket: string, chunks: seq<string>, o: Oracle, k: nat, s: Store)
    ensures UploadsMatch(UploadChunks(bucket, chunks, o, k, s), bucket, NonBlank(chunks), o, k, s)
    decreases |chunks|
  {
    if |chunks| == 0 {
      assert BlobsOf(o, k, 0) == {};
    } else if IsBlank(chunks[0]) {
      UploadChunksMatch(bucket, chunks[1..], o, k, s);
    } else if k in o.uploadFaults {
      assert BlobsOf(o, k, 0) == {};
      NonBlankCons(chunks);
    } else {
      var blob := BlobName(o.nextId(k));
      var s' := Store(s.blobs + {blob}, s.log + [Uploaded(blob, chunks[0], true)]);
      var rest := UploadChunks(bucket, chunks[1..], o, k + 1, s');
      UploadChunksMatch(bucket, chunks[1..], o, k + 1, s');
      NonBlankCons(chunks);
      UploadStep(UploadChunks(bucket, chunks, o, k, s), rest, bucket, chunks[0], NonBlank(chunks[1..]), o, k, s, s');
    }
  }

  /** The inductive step: a first chunk whose upload passes, followed by
      the rest of the loop. */
  lemma UploadStep(u: Uploads, rest: Uploads, bucket: string, c: string, tail: seq<string>,
                   o: Oracle, k: nat, s: Store, s': Store)
    requires k !in o.uploadFaults
    requires s' == Store(s.blobs + {BlobName(o.nextId(k))}, s.log + [Uploaded(BlobName(o.nextId(k)), c, true)])
    requires u == Uploads([GcsUri(bucket, BlobName(o.nextId(k)))] + rest.uris, rest.store, rest.fault)
    requires UploadsMatch(rest, bucket, tail, o, k + 1, s')
    ensures UploadsMatch(u, bucket, [c] + tail, o, k, s)
  {
    var m' := FirstFault(o.uploadFaults, k + 1, |tail|);
    var m := 1 + m';
    assert FirstFault(o.uploadFaults, k, |[c] + tail|) == m;
    assert u.store.blobs == s.blobs + BlobsOf(o, k, m) by {
      BlobsOfStep(o, k, m');
    }
    UploadStepLog(s.log, u.store.log, c, tail, o, k, m');
    if m == |[c] + tail| {
      UrisOfStep(bucket, o, k, m');
    }
  }

  /** The log part of the inductive step. */
  lemma UploadStepLog(log: seq<Effect>, after: seq<Effect>, c: string, tail: seq<string>, o: Oracle, k: nat, m: nat)
    requires m <= |tail|
    requires after == (log + [Uploaded(BlobName(o.nextId(k)), c, true)]) + UploadLog(tail[..m], o, k + 1) + FailedUpload(tail, o, k + 1, m)
    ensures after == log + UploadLog(([c] + tail)[..1 + m], o, k) + FailedUpload([c] + tail, o, k, 1 + m)
  {
    UploadLogPrefixStep(c, tail, o, k, m);
    FailedUploadStep(c, tail, o, k, m);
    var x := [Uploaded(BlobName(o.nextId(k)), c, true)];
    var a := UploadLog(tail[..m], o, k + 1);
    var f := FailedUpload(tail, o, k + 1, m);
    assert (log + x) + a + f == log + (x + a) + f;
  }

  /** The attempt that raises is the same one counted from either end of
      the first upload. */
  lemma FailedUploadStep(c: string, tail: seq<string>, o: Oracle, k: nat, m: nat)
    ensures FailedUpload([c] + tail, o, k, 1 + m) == FailedUpload(tail, o, k + 1, m)
  {
    if m < |tail| {
      assert ([c] + tail)[1 + m] == tail[m];
      assert k + (1 + m) == (k + 1) + m;
    }
  }

  /** A non-blank first chunk is the first chunk uploaded. */
  lemma NonBlankCons(chunks: seq<string>)
    requires |chunks| > 0 && !IsBlank(chunks[0])
    ensures NonBlank(chunks) == [chunks[0]] + NonBlank(chunks[1..])
  {
  }

  /** The log of the first 1+m uploads is the first upload's entry, then
      the log of the next m. */
  lemma UploadLogPrefixStep(c: string, tail: seq<string>, o: Oracle, k: nat, m: nat)
    requires m <= |tail|
    ensures UploadLog(([c] + tail)[..1 + m], o, k) == [Uploaded(BlobName(o.nextId(k)), c, true)] + UploadLog(tail[..m], o, k + 1)
  {
    assert ([c] + tail)[..1 + m] == [c] + tail[..m];
    UploadLogStep(c, tail[..m], o, k);
  }

  // ---------------------------------------------------------------------
  // The compensating loop

  /** The log entries of the compensating loop over `uris`, from delete j on. */
  function DeleteLog(bucket: string, uris: seq<string>, o: Oracle, j: nat): seq<Effect>
  {
    seq(|uris|, i requires 0 <= i < |uris| => DeleteAttempted(BlobNameOfUri(bucket, uris[i]), j + i !in o.deleteFaults))
  }

  /** The blobs the compensating loop removes: those whose delete did not raise. */
  function DeletedBlobs(bucket: string, uris: seq<string>, o: Oracle, j: nat): set<string>
  {
    set i | 0 <= i < |uris| && j + i !in o.deleteFaults :: BlobNameOfUri(bucket, uris[i])
  }

  /** A delete is attempted for every URI, in order, and a delete that
      raises does not stop the ones after it; exactly the blobs whose delete
      succeeded leave the bucket. */
  lemma {:induction false} CompensateEffect(bucket: string, uris: seq<string>, o: Oracle, j: nat, s: Store)
    ensures Compensate(bucket, uris, o, j, s).log == s.log + DeleteLog(bucket, uris, o, j)
    ensures Compensate(bucket, uris, o, j, s).blobs == s.blobs - DeletedBlobs(bucket, uris, o, j)
    decreases |uris|
  {
    if |uris| == 0 {
      assert DeleteLog(bucket, uris, o, j) == [];
      assert DeletedBlobs(bucket, uris, o, j) == {};
    } else {
      var blob := BlobNameOfUri(bucket, uris[0]);
      var ok := j !in o.deleteFaults;
      var s' := Store(if ok then s.blobs - {blob} else s.blobs, s.log + [DeleteAttempted(blob, ok)]);
      CompensateEffect(bucket, uris[1..], o, j + 1, s');
      assert DeleteLog(bucket, uris, o, j) == [DeleteAttempted(blob, ok)] + DeleteLog(bucket, uris[1..], o, j + 1);
      var rest := DeletedBlobs(bucket, uris[1..], o, j + 1);
      var all := DeletedBlobs(bucket, uris, o, j);
      assert all == (if ok then {blob} else {}) + rest by {
        forall b | b in all ensures b in (if ok then {blob} else {}) + rest {
          var i :| 0 <= i < |uris| && j + i !in o.deleteFaults && b == BlobNameOfUri(bucket, uris[i]);
          if i > 0 {
            assert uris[1..][i - 1] == uris[i];
          }
        }
        forall b | b in (if ok then {blob} else {}) + rest ensures b in all {
          if b in rest {
            var i :| 0 <= i < |uris[1..]| && j + 1 + i !in o.deleteFaults && b == BlobNameOfUri(bucket, uris[1..][i]);
            assert uris[1..][i] == uris[i + 1];
          }
        }
      }
    }
  }

  // ---------------------------------------------------------------------
  // `import_chunks`

  /** The delete attempts of a full compensation after n uploads, stated in
      terms of the uploaded blob names. */
  function AttemptsFor(o: Oracle, n: nat): seq<Effect>
  {
    seq(n, i requires 0 <= i < n => DeleteAttempted(BlobName(o.nextId(i)), i !in o.deleteFaults))
  }

  /** The uploaded blobs whose compensating delete succeeds. */
  function RemovedFor(o: Oracle, n: nat): set<string>
  {
    set i | 0 <= i < n && i !in o.deleteFaults :: BlobName(o.nextId(i))
  }

  /** Identifiers the oracle hands out look like uuid4 text. */
  predicate FreshIdsAreUuids(o: Oracle, n: nat)
  {
    forall i :: 0 <= i < n ==> IsUuidText(o.nextId(i))
  }

  /** If every chunk is blank, `ValueError("No valid chunks to import")` is
      raised, nothing is uploaded and the import is never requested: the
      store is left exactly as it was. */
  lemma ImportRejectsBlankChunks(cfg: RagConfig, corpus: string, chunks: seq<string>,
                                 chunkSize: Option<int>, o: Oracle, s: Store)
    ensures (forall i :: 0 <= i < |chunks| ==> IsBlank(chunks[i])) ==>
      ImportChunks(cfg, corpus, chunks, chunkSize, o, s) == ImportRun(s, Some(ValueError("No valid chunks to import")))
  {
    UploadChunksEffect(cfg.bucketName, chunks, o, 0, s);
    var nb := NonBlank(chunks);
    if nb == [] {
      assert BlobsOf(o, 0, 0) == {};
      assert UploadLog(nb[..0], o, 0) == [];
    }
  }

  /** An upload that raises (the first one, the m-th) is not compensated:
      the chunks before it stay uploaded, the failed attempt is the last
      call made, the import is never requested, no delete is attempted, and
      the upload's own exception propagates. */
  lemma UploadFailureNotCompensated(cfg: RagConfig, corpus: string, chunks: seq<string>,
                                    chunkSize: Option<int>, o: Oracle, s: Store, m: nat)
    requires m < |NonBlank(chunks)| && m in o.uploadFaults
    requires forall j :: 0 <= j < m ==> j !in o.uploadFaults
    ensures var r := ImportChunks(cfg, corpus, chunks, chunkSize, o, s);
      && r.outcome == Some(o.uploadFaults[m])
      && r.store == Store(s.blobs + BlobsOf(o, 0, m),
                          s.log + UploadLog(NonBlank(chunks)[..m], o, 0)
                                + [Uploaded(BlobName(o.nextId(m)), NonBlank(chunks)[m], false)])
  {
    var nb := NonBlank(chunks);
    UploadChunksEffect(cfg.bucketName, chunks, o, 0, s);
    FirstFaultIsFirst(o.uploadFaults, 0, |nb|, m);
  }

  /** The first raising call is the one FirstFault names. */
  lemma {:induction false} FirstFaultIsFirst(faults: map<nat, Exception>, k: nat, n: nat, m: nat)
    requires m < n && k + m in faults
    requires forall j :: k <= j < k + m ==> j !in faults
    ensures FirstFault(faults, k, n) == m
    decreases n
  {
    if m > 0 {
      FirstFaultIsFirst(faults, k + 1, n - 1, m - 1);
    }
  }

  /** With the uploads passing, a successful import leaves every uploaded
      blob in place: the log is the uploads of the non-blank chunks in
      order, then one import of their URIs (in chunk order) with the
      effective chunk size and the configured overlap; nothing is deleted. */
  lemma ImportSuccessKeepsBlobs(cfg: RagConfig, corpus: string, chunks: seq<string>,
                                chunkSize: Option<int>, o: Oracle, s: Store)
    requires NonBlank(chunks) != []
    requires forall j :: 0 <= j < |NonBlank(chunks)| ==> j !in o.uploadFaults
    requires o.importFault == None
    ensures var n := |NonBlank(chunks)|;
      var r := ImportChunks(cfg, corpus, chunks, chunkSize, o, s);
      && r.outcome == None
      && r.store.blobs == s.blobs + BlobsOf(o, 0, n)
      && r.store.log == s.log + UploadLog(NonBlank(chunks), o, 0)
           + [ImportRequested(corpus, UrisOf(cfg.bucketName, o, 0, n), EffectiveChunkSize(chunkSize, cfg), cfg.chunkOverlap)]
  {
    var nb := NonBlank(chunks);
    UploadChunksEffect(cfg.bucketName, chunks, o, 0, s);
    NoFaultMeansAll(o.uploadFaults, 0, |nb|);
    assert nb[..|nb|] == nb;
  }

  /** FirstFault reaches n when none of the n calls raises. */
  lemma {:induction false} NoFaultMeansAll(faults: map<nat, Exception>, k: nat, n: nat)
    requires forall j :: k <= j < k + n ==> j !in faults
    ensures FirstFault(faults, k, n) == n
    decreases n
  {
    if n > 0 {
      NoFaultMeansAll(faults, k + 1, n - 1);
    }
  }

  /** When some chunk is non-blank and no upload raises, `import_chunks`
      returns exactly when the bulk import does, and otherwise raises the
      import's own exception. */
  lemma ImportOutcome(cfg: RagConfig, corpus: string, chunks: seq<string>,
                      chunkSize: Option<int>, o: Oracle, s: Store)
    requires NonBlank(chunks) != []
    requires forall j :: 0 <= j < |NonBlank(chunks)| ==> j !in o.uploadFaults
    ensures ImportChunks(cfg, corpus, chunks, chunkSize, o, s).outcome == o.importFault
  {
    var n := |NonBlank(chunks)|;
    UploadChunksEffect(cfg.bucketName, chunks, o, 0, s);
    NoFaultMeansAll(o.uploadFaults, 0, n);
  }

  /** The compensate-then-re-raise contract: when the import raises, a
      delete is attempted for every uploaded blob, in upload order, a delete
      that raises does not stop the rest, the exception surfaced is the
      import's own, and exactly the blobs whose delete succeeded are gone. */
  lemma ImportFailureCompensates(cfg: RagConfig, corpus: string, chunks: seq<string>,
                                 chunkSize: Option<int>, o: Oracle, s: Store)
    requires NonBlank(chunks) != []
    requires forall j :: 0 <= j < |NonBlank(chunks)| ==> j !in o.uploadFaults
    requires FreshIdsAreUuids(o, |NonBlank(chunks)|)
    requires o.importFault.Some?
    ensures var n := |NonBlank(chunks)|;
      var r := ImportChunks(cfg, corpus, chunks, chunkSize, o, s);
      && r.outcome == o.importFault
      && r.store.log == s.log + UploadLog(NonBlank(chunks), o, 0)
           + [ImportRequested(corpus, UrisOf(cfg.bucketName, o, 0, n), EffectiveChunkSize(chunkSize, cfg), cfg.chunkOverlap)]
           + AttemptsFor(o, n)
      && r.store.blobs == (s.blobs + BlobsOf(o, 0, n)) - RemovedFor(o, n)
  {
    var n := |NonBlank(chunks)|;
    var bucket := cfg.bucketName;
    var up := UploadsAllPass(bucket, chunks, o, s);
    var imported := Store(up.store.blobs, up.store.log + [ImportRequested(corpus, up.uris, EffectiveChunkSize(chunkSize, cfg), cfg.chunkOverlap)]);
    assert ImportChunks(cfg, corpus, chunks, chunkSize, o, s) == ImportRun(Compensate(bucket, up.uris, o, 0, imported), o.importFault);
    CompensateEffect(bucket, up.uris, o, 0, imported);
    CompensationOfUploads(bucket, o, n);
  }

  /** When no upload raises, the loop uploads every non-blank chunk. */
  lemma UploadsAllPass(bucket: string, chunks: seq<string>, o: Oracle, s: Store) returns (up: Uploads)
    requires forall j :: 0 <= j < |NonBlank(chunks)| ==> j !in o.uploadFaults
    ensures up == UploadChunks(bucket, chunks, o, 0, s)
    ensures var n := |NonBlank(chunks)|;
      && up.fault.None?
      && up.uris == UrisOf(bucket, o, 0, n)
      && up.store == Store(s.blobs + BlobsOf(o, 0, n), s.log + UploadLog(NonBlank(chunks), o, 0))
  {
    var nb := NonBlank(chunks);
    UploadChunksEffect(bucket, chunks, o, 0, s);
    NoFaultMeansAll(o.uploadFaults, 0, |nb|);
    assert nb[..|nb|] == nb;
    up := UploadChunks(bucket, chunks, o, 0, s);
  }

  /** Compensating for n uploads deletes the blobs those uploads created. */
  lemma CompensationOfUploads(bucket: string, o: Oracle, n: nat)
    requires FreshIdsAreUuids(o, n)
    ensures DeleteLog(bucket, UrisOf(bucket, o, 0, n), o, 0) == AttemptsFor(o, n)
    ensures DeletedBlobs(bucket, UrisOf(bucket, o, 0, n), o, 0) == RemovedFor(o, n)
  {
    var uris := UrisOf(bucket, o, 0, n);
    forall i | 0 <= i < n ensures BlobNameOfUri(bucket, uris[i]) == BlobName(o.nextId(i)) {
      UriRoundTrip(bucket, o.nextId(i));
    }
    assert DeleteLog(bucket, uris, o, 0) == AttemptsFor(o, n);
    assert DeletedBlobs(bucket, uris, o, 0) == RemovedFor(o, n);
  }

  /** When every compensating delete succeeds and the fresh names were not
      already in the bucket, a failed import leaves the bucket as it found it. */
  lemma FailedImportRestoresBucket(cfg: RagConfig, corpus: string, chunks: seq<string>,
                                   chunkSize: Option<int>, o: Oracle, s: Store)
    requires NonBlank(chunks) != []
    requires forall j :: 0 <= j < |NonBlank(chunks)| ==> j !in o.uploadFaults && j !in o.deleteFaults
    requires FreshIdsAreUuids(o, |NonBlank(chunks)|)
    requires forall j :: 0 <= j < |NonBlank(chunks)| ==> BlobName(o.nextId(j)) !in s.blobs
    requires o.importFault.Some?
    ensures ImportChunks(cfg, corpus, chunks, chunkSize, o, s).store.blobs == s.blobs
  {
    var n := |NonBlank(chunks)|;
    ImportFailureCompensates(cfg, corpus, chunks, chunkSize, o, s);
    assert RemovedFor(o, n) == BlobsOf(o, 0, n);
  }

  /** Called with no chunk size, `import_chunks` imports with the default
      chunking of a defaulted configuration: size 512, overlap 100. */
  lemma DefaultChunking(projectId: string, bucketName: string, displayName: Option<string>, requested: Option<int>)
    requires requested == None || requested == Some(0)
    ensures var cfg := NewRagConfig(projectId, bucketName, displayName);
      EffectiveChunkSize(requested, cfg) == 512 && cfg.chunkOverlap == 100
  {
  }

  // ---------------------------------------------------------------------
  // `delete_files`

  /** How `delete_files` ended: the file ids a `rag.delete_file` call was
      issued for, in order, and the exception one of them raised, if any. */
  datatype DeleteRun = DeleteRun(calls: seq<string>, fault: Option<Exception>)

  /** `delete_files(corpus, file_ids)`: one `rag.delete_file` per id, in list
      order; the k-th call raising ends the loop and propagates. */
  function DeleteFiles(fileIds: seq<string>, faults: map<nat, Exception>, k: nat): (r: DeleteRun)
    ensures |r.calls| <= |fileIds| && r.calls == fileIds[..|r.calls|]
    ensures r.fault.None? ==> r.calls == fileIds
    decreases |fileIds|
  {
    if |fileIds| == 0 then DeleteRun([], None)
    else if k in faults then DeleteRun([fileIds[0]], Some(faults[k]))
    else
      var rest := DeleteFiles(fileIds[1..], faults, k + 1);
      DeleteRun([fileIds[0]] + rest.calls, rest.fault)
  }

  /** `r` is how deleting `ids`, as calls k, k+1, ..., ends: every id up to
      and including the first raising call is issued, in order, and that
      call's exception is the one surfaced. */
  predicate DeletesMatch(r: DeleteRun, ids: seq<string>, faults: map<nat, Exception>, k: nat)
  {
    var m := FirstFault(faults, k, |ids|);
    && (m == |ids| ==> r == DeleteRun(ids, None))
    && (m < |ids| ==> r == DeleteRun(ids[..m + 1], Some(faults[k + m])))
  }

  /** Exactly one delete is issued per id, in list order, up to and
      including the first that raises; its exception is the one surfaced. */
  lemma {:induction false} DeleteFilesEffect(fileIds: seq<string>, faults: map<nat, Exception>, k: nat)
    ensures var r := DeleteFiles(fileIds, faults, k);
      var m := FirstFault(faults, k, |fileIds|);
      && (m == |fileIds| ==> r == DeleteRun(fileIds, None))
      && (m < |fileIds| ==> r == DeleteRun(fileIds[..m + 1], Some(faults[k + m])))
    decreases |fileIds|
  {
    if |fileIds| > 0 && k !in faults {
      DeleteFilesEffect(fileIds[1..], faults, k + 1);
      DeleteStep(fileIds, faults, k, DeleteFiles(fileIds[1..], faults, k + 1));
    }
  }

  /** The inductive step: a first delete that passes, then the rest. */
  lemma DeleteStep(ids: seq<string>, faults: map<nat, Exception>, k: nat, rest: DeleteRun)
    requires |ids| > 0 && k !in faults
    requires DeletesMatch(rest, ids[1..], faults, k + 1)
    ensures DeletesMatch(DeleteRun([ids[0]] + rest.calls, rest.fault), ids, faults, k)
  {
    var m' := FirstFault(faults, k + 1, |ids| - 1);
    assert FirstFault(faults, k, |ids|) == 1 + m';
    if m' < |ids| - 1 {
      assert ids[..m' + 2] == [ids[0]] + ids[1..][..m' + 1];
    } else {
      assert ids == [ids[0]] + ids[1..];
    }
  }
}
